=== FILE: README.md ===
# mvc_pygame: event bus, state stack, keyboard and view dispatch

A Dafny model of the coordination core of a small pygame Model-View-Controller
skeleton. Three listeners are registered with one `EventManager`:

- the `GameEngine`, which owns a stack of `States`;
- the `Keyboard` controller, which drains pygame's input queue on every Tick;
- the `GraphicalView`, which draws the screen for the state on top of the stack.

`EventManager.Post` prints every event except a Tick. It then calls `notify` on each
registered listener in turn. A listener may post further events from inside `notify`.
Each such post is delivered in full before the outer delivery goes on. `GameEngine.run`
sets the running flag, posts Initialize, pushes the menu state and then posts Ticks while
the flag is set.

pygame itself is abstracted away:

- the view's drawing becomes output tokens (open, close, draw a screen, clock tick);
- the input queue becomes a sequence of raw inputs (window close, key press, other);
- standard output becomes a log of lines.

Modules follow the source files:

| module | models |
|---|---|
| `Events` | the event classes and their `str()` (eventmanager.py) |
| `EventManager` | the listener registry and the print rule of `Post` (eventmanager.py) |
| `StateMachine` | `States` and the stack with `peek`/`push`/`pop` (model.py) |
| `Model` | `GameEngine.notify` as a pure step (model.py) |
| `Controller` | the keyboard's key dispatch (controller.py) |
| `View` | the view's `initialized` flag and choice of screen (view.py) |
| `Dispatch` | the nested synchronous `Post` over the three listeners |
| `MainLoop` | `GameEngine.run` |
| `Scenarios` | end-to-end runs of the wired game |
| `Wrappers`, `Decimal` | `Option`/`Result`, and Python's `str()` of an integer |

## How nested posting is modelled

`Post`, `Deliver` (the loop over listeners), `Notify` (one listener), `PostEach` (a
handler posting several events) and `Poll` (the keyboard draining its input) are mutually
recursive functions. They terminate on an event rank:

- Tick has rank 2;
- StateChange and Input have rank 1;
- Quit and Initialize have rank 0.

A handler only ever posts events of strictly smaller rank than the event it handles:

- the engine posts Quit only while handling a pop request;
- the keyboard posts only while handling a Tick;
- the view never posts.

Every post returns the new world and its effects:

- the events posted, in order;
- the `notify` calls made (the trace);
- the printed lines;
- the view's output.

The keyboard's "Unknown state" exception aborts the whole post as a `Failure`.

The lemmas `PostMeetsSpec` … `PollMeetsSpec` prove what every post guarantees. The three
central facts are these:

- the engine after a post is the fold of `GameEngine.notify` over exactly the deliveries
  addressed to the engine, and the view likewise;
- the screen output is what the view's `notify` produces at each of its deliveries, given
  the engine's stack at that point of the trace;
- the listeners notified with the posted event are exactly the registry, once each, in
  order.

Besides these, a Tick empties pygame's queue exactly when the keyboard is registered, and
the inputs it drains are answered: a window close with Quit, an Escape press with a pop
request.

## Model

| member | source | states |
|---|---|---|
| `Decimal.IntStrRoundTrip` | eventmanager.py:32-33 | The decimal text Python prints for a coordinate reads back as the same integer. |
| `Events.ToString` | eventmanager.py:2-60 | Every printed event starts with its class's `name`. Quit, Tick and Initialize print exactly their name. |
| `Events.InputLine` | eventmanager.py:32-33 | An input event prints "Input event, char=" and its character, then ", clickpos=" and its click position, as Python formats them. |
| `Events.PosTextInjective` | eventmanager.py:33 | The printed click position determines the position. The coordinates are split at the first comma and each reads back as its integer. |
| `Events.PushedLine` | eventmanager.py:56-58 | A push request prints "State change event pushed " followed by the enum member's name. |
| `Events.StateChangeLineRoundTrip` | eventmanager.py:56-60 | The printed line of a state change determines the request: a pop, or a push of which state. No other event's line reads as a state change. |
| `EventManager.Register` | eventmanager.py:72-77 | Afterwards the listener is registered and nothing else is added. Existing entries keep their order. The registry stays free of duplicates. |
| `EventManager.RegisterTwiceOnce` | eventmanager.py:77 | Registering a listener twice is the same as registering it once, and it has exactly one entry. |
| `EventManager.Unregister` | eventmanager.py:79-85 | Afterwards the listener is absent and every other listener's membership is unchanged. Unregistering an absent listener changes nothing. |
| `EventManager.UnregisterRemovesEntry` | eventmanager.py:84-85 | In a duplicate-free registry, exactly the listener's one entry is removed and the others keep their order. |
| `EventManager.RegisterThenUnregister` | eventmanager.py:72-85 | Unregistering a listener that was just newly registered restores the registry. |
| `EventManager.LogOfContents` | eventmanager.py:87-90 | The lines printed by a run of posts are the `str()` of its non-Tick events and nothing else. |
| `EventManager.LogOf` | eventmanager.py:88-90 | A run of posts prints one line per non-Tick event. |
| `StateMachine.Peek` | model.py:72-79 | `peek()` is None exactly on an empty stack, and otherwise the last state pushed. |
| `StateMachine.Push` | model.py:96-100 | After `push(s)`, `peek()` is `s` and the stack below is unchanged. |
| `StateMachine.Pop` | model.py:81-94 | On an empty stack, `pop()` returns None and the stack stays empty. Otherwise it removes exactly the top. It returns true if and only if at least two states were stacked, and false if and only if one was. |
| `StateMachine.PushThenPop` | model.py:86-100 | A pop after a push restores the original stack. |
| `StateMachine.PopThenPeek` | model.py:72-94 | After a pop, `peek()` shows the state that was below the former top. |
| `StateMachine.ApplyHeight` | model.py:81-100 | The height after a run of calls counts one up per push, and one down per pop of a non-empty stack. |
| `Model.Notify` | model.py:21-34 | Quit clears `running` and leaves the stack. A push request pushes and posts nothing. A pop request pops, and posts Quit if and only if the stack is then empty. Any other event changes nothing. Only pop requests post, and only Quit. |
| `Model.PopOnEmptyPostsQuit` | model.py:33-34 | A pop request on an empty stack also posts Quit, because `not None` is true. |
| `Model.RunningKeepsAState` | model.py:21-34 | If a running engine always has a state, then after one event it is left running with an empty stack only when it posts Quit. |
| `Controller.HandleKeydown` | controller.py:38-80 | Escape posts exactly a pop request in every state, without consulting the handler map. Any other key fails with "Unknown state" exactly when the top is not Menu, Help or Play. The failure's text names that top. In Menu, Space requests Play. In Help, Space or Return pops. In Play, F1 requests Help and any other key posts its text as an Input event. |
| `Controller.PollOne` | controller.py:30-36 | A window-close signal posts Quit. A key press is answered exactly as `handle_keydown_event` answers it. Other inputs are ignored. Only Quit, state changes and Input events are posted. A failure comes only from a non-Escape key in a state without a handler. |
| `Controller.MessageNamesState` | controller.py:47-49 | Two "Unknown state" exceptions with the same text were raised for the same state. |
| `Controller.HandlersNeverSeeEscape` | controller.py:39-41 | The Escape tests inside the per-state handlers are never reached. Were the play handler reached with Escape, it would post both a pop and an Input event. |
| `View.ScreenFor` | view.py:52-58 | A Tick draws the menu, play or help screen exactly when `peek()` is Menu, Play or Help. |
| `View.Lifecycle` | view.py:41-45 | Initialize sets `initialized` and Quit clears it. Every other event leaves the view as it was. The frame rate never changes. |
| `View.Notify` | view.py:38-60 | Initialize opens the display and Quit closes it. A Tick on an uninitialised view does nothing. On an initialised view, a Tick draws the chosen screen (if any) and then ticks the clock at `fps`. State changes and Input events produce nothing. |
| `View.OneFramePerTick` | view.py:47-60 | An initialised view ticks the clock exactly once per Tick, last, after at most one screen. |
| `Dispatch.Post` | eventmanager.py:87-94 | A post of anything but a Tick always completes, since only the keyboard's Tick handling can raise. No post changes the registry. |
| `Dispatch.PostMeetsSpec` | eventmanager.py:87-94 | A completed post posts its event first, then only events of lower rank from inside handlers. The listeners notified with the event are exactly the registry, in order. Every posted event reaches every registered listener. The printed lines are the non-Tick posts in order. The engine and the view change only by handling their own deliveries. The screen output is what the view produces at each of its deliveries, reading `peek()` of the engine as it is at that moment. |
| `Dispatch.DeliverMeetsSpec` | eventmanager.py:93-94 | Notifying the listeners `ls` in turn calls each of them with the event, in that order. Every other call is for an event posted from inside a handler. |
| `Dispatch.NotifyMeetsSpec` | eventmanager.py:94 | One `notify` call is recorded first. Whatever the listener posts is of lower rank, and is itself delivered. |
| `Dispatch.PostEachMeetsSpec` | model.py:33-34 | Events a handler posts one after another are each posted and delivered. |
| `Dispatch.PollMeetsSpec` | controller.py:30-36 | The keyboard's handling of its queue posts only events below Tick, and each is delivered. A window close in the queue posts Quit and an Escape press posts a pop request, whatever the state. |
| `Dispatch.KeyboardIgnoresNonTick` | controller.py:26-27 | The keyboard returns from every event but Tick at once. It posts nothing, reads no input and changes nothing. |
| `Dispatch.NoViewNoScreen` | view.py:38-60 | Without a registered view, a completed post asks nothing of pygame. |
| `Dispatch.ClosedViewDrawsNothing` | view.py:43-50 | An uninitialised view draws no screen and ticks no clock for the rest of a post that does not post Initialize, even when it is notified of Ticks. At most it shuts the display down again on Quit. |
| `Dispatch.PostNotifiesEachOnce` | eventmanager.py:93-94 | In a completed post, each listener is notified with the posted event exactly once if registered, and never otherwise. |
| `Dispatch.UnregisteredNeverNotified` | eventmanager.py:84-94 | After Unregister, no later post calls that listener, including the posts nested inside it. |
| `Dispatch.TickDrainsQueue` | controller.py:26-30 | A Tick empties pygame's queue exactly when the keyboard is registered. No other post touches the queue. |
| `Dispatch.WindowCloseQuits` | controller.py:30-33 | A window close waiting in the queue makes the next Tick post Quit and stop a registered engine, when that Tick completes (no earlier key press in the queue raises "Unknown state"). |
| `Dispatch.QueuedEscapeRequestsPop` | controller.py:35-41 | An Escape press waiting in the queue makes the next Tick post a pop request, whatever the state, when that Tick completes (no earlier key press in the queue raises "Unknown state"). |
| `Dispatch.QuitStopsEngine` | model.py:23-24 | A Quit posted at any depth stops a registered engine before the outer post returns. |
| `Dispatch.OnlyEngineWritesState` | model.py:21-34 | Without a registered engine, no post changes the stack or the running flag, whatever the other listeners post. |
| `Dispatch.SilentPost` | eventmanager.py:87-94 | When no listener answers with a post of its own, a post prints its line and notifies the registry once each, in order. The engine and the view each handle the event once. |
| `Dispatch.PostPush` | model.py:25-29 | A push request pushes the state on a registered engine, posts nothing more, and prints the "pushed" line. |
| `Dispatch.PostPopReturns` | model.py:31-34 | A pop request with at least two states stacked returns to the state below, leaves the running flag as it was, and posts nothing more. |
| `Dispatch.PostPopLast` | model.py:31-34 | A pop request that leaves no state, or finds none, posts Quit, which every registered listener receives. The engine stops with an empty stack. The log is the "popped" line followed by "Quit event". |
| `MainLoop.Start` | model.py:41-46 | `run` sets `running` and posts Initialize, which every listener receives and nobody answers. The Menu state is then pushed. The view ends up initialised and a running engine has a state. |
| `MainLoop.InitializeChangesOnlyView` | model.py:42 | Posting Initialize leaves the engine untouched, posts nothing more, and initialises a registered view. |
| `MainLoop.Loop` | model.py:47-49 | Each iteration posts one Tick. A loop entered with the engine stopped does nothing, and with the engine registered no Tick is posted after a Quit: the loop stops right after the Tick whose handling posted Quit. It posts no Initialize and keeps the engine's invariant. Each batch joins the queue before its Tick, and a registered keyboard leaves the queue empty once a Tick has run. |
| `MainLoop.Run` | model.py:36-49 | A run posts Initialize first and never again. It posts at most one Tick per batch of input, and fewer only if the engine stopped. |
| `Scenarios.StartShowsMenu` | model.py:41-46 | Starting the freshly wired game leaves the engine running on the menu, with the display open. |
| `Scenarios.EngineIgnoresTick` | model.py:21-34 | The engine's handling of a Tick changes nothing and posts nothing. |
| `Scenarios.SpaceInMenuStartsPlay` | controller.py:62-63 | Space in the menu pushes Play during the Tick. The view, notified later in the same Tick, already draws the play screen. |
| `Scenarios.EscapeThenKeyAborts` | controller.py:38-49 | From the menu, Escape followed by another key in one Tick empties the stack. The next key then raises "Unknown state: None". |
| `Scenarios.PopRequestOnLastStateQuits` | model.py:31-34 | A pop request (what Escape posts) on the last state posts Quit. The engine stops, the view closes, and the loop ends without another Tick. |
| `Scenarios.PushThenPopRestores` | model.py:25-34 | Opening a state over a non-empty stack and popping it restores the engine exactly. |
| `Scenarios.HelpAndBack` | model.py:25-34 | From the menu: play, help, then a pop returns to play with the engine still running. |
| `Scenarios.UnregisterSilencesListener` | eventmanager.py:79-94 | A listener hears a Tick while registered, and no longer after it is unregistered. The others still hear it. |

## Left out

- pygame itself is abstracted into output tokens and raw inputs, because none of its
  behaviour is visible here:
  - display, fonts, drawing, flipping and the clock's timing;
  - window size and title;
  - concrete key codes: keys the handlers do not test are one `OtherKey`.
- `print` is modelled as appending a line to a log.
- `WeakKeyDictionary`'s removal of collected listeners is not modelled; the registry is
  an explicit sequence of listeners.
- The `Listener` base class is not part of this model. It registers each listener from
  its constructor.
- No entry point that constructs the three objects is part of this model. The scenarios
  assume registration in the order engine, keyboard, view, and `Dispatch` delivers in
  registration order.
- Mutation of the registry during a post is not modelled, because no handler does it.
- The base `Event` class ("Generic event") is never posted, so it is not an event of the
  model.
- When the keyboard raises, the whole post is a `Failure`. The lines printed and the
  screen drawn before the exception are not kept.
- MainLoop.Loop: `while self.running` is unbounded. The model runs at most one iteration
  per batch of raw inputs, and says only that fewer iterations mean the engine stopped.
- Pointer clicks are not modelled: every Input event the keyboard posts carries no click
  position, as in the code.

## Notes on the code

- `push` is documented to return the pushed value (model.py:97-98) but returns nothing
  (model.py:100). The model follows the code.
- `not self.state.pop()` (model.py:33) treats the empty-stack `None` like `False`, so a
  pop request on an empty stack also posts Quit (`Model.PopOnEmptyPostsQuit`).
- Callers write `post` while the manager defines `Post` (eventmanager.py:87). Both are
  taken as the same operation.
- Popping the last state posts Quit, yet the keyboard keeps reading the rest of the same
  batch of input. A key press other than Escape after it finds no state, and the keyboard
  raises "Unknown state: None" (`Scenarios.EscapeThenKeyAborts`).

=== FILE: controller.dfy ===
/** `Keyboard` of controller.py with pygame's event queue abstracted: each raw input is
    a window-close signal, a key press, or something the keyboard does not look at. */
module Controller {
  import opened Wrappers
  import opened StateMachine
  import opened Events

  /** The keys the handlers test for; every other key is `OtherKey`. */
  datatype Key = Escape | Space | Return | F1 | OtherKey

  /** One entry of `pygame.event.get()`: a key press carries the key and its text. */
  datatype RawInput = WindowClose | KeyDown(key: Key, text: string) | Unhandled

  /** The exception raised for a state without a key handler. */
  datatype Fatal = UnknownState(state: Option<State>)

  /** The text of that exception. */
  function Message(f: Fatal): string
  {
    "Unknown state: " + OptionalStateName(f.state) + ". No handling defined for state."
  }

  /** The exception text names the state it was raised for: two errors with the same text
      are the same error. */
  lemma MessageNamesState(f: Fatal, f': Fatal)
    requires Message(f) == Message(f')
    ensures f == f'
  {
    var pre := "Unknown state: ";
    var post := ". No handling defined for state.";
    var n, n' := OptionalStateName(f.state), OptionalStateName(f'.state);
    assert Message(f) == pre + n + post && Message(f') == pre + n' + post;
    assert |n| == |n'|;
    assert n == Message(f)[|pre|..|pre| + |n|];
    assert n' == Message(f')[|pre|..|pre| + |n'|];
    if f.state.Some? && f'.state.Some? {
      StateNameRoundTrip(f.state.value);
      StateNameRoundTrip(f'.state.value);
    }
  }

  /** The three per-state handlers of `keydown_state_map`. */
  datatype Handler = MenuKeys | HelpKeys | PlayKeys

  /** `keydown_state_map.get(state)`. */
  function HandlerFor(top: Option<State>): Option<Handler> {
    match top
    case Some(Menu) => Some(MenuKeys)
    case Some(Help) => Some(HelpKeys)
    case Some(Play) => Some(PlayKeys)
    case _ => None
  }

  /** `keydown_menu`: Escape pops, Space asks for the game. */
  function KeydownMenu(key: Key): seq<Event> {
    (if key == Escape then [StateChange(None)] else [])
    + (if key == Space then [StateChange(Some(Play))] else [])
  }

  /** `keydown_help`: Escape, Space or Return pop the help screen. */
  function KeydownHelp(key: Key): seq<Event> {
    if key in {Escape, Space, Return} then [StateChange(None)] else []
  }

  /** `keydown_play`: Escape pops; F1 asks for help, any other key is game input. The two
      tests are independent, so Escape would post both a pop and an input. */
  function KeydownPlay(key: Key, text: string): seq<Event> {
    (if key == Escape then [StateChange(None)] else [])
    + (if key == F1 then [StateChange(Some(Help))] else [Input(Some(text), None)])
  }

  function RunHandler(h: Handler, key: Key, text: string): seq<Event> {
    match h
    case MenuKeys => KeydownMenu(key)
    case HelpKeys => KeydownHelp(key)
    case PlayKeys => KeydownPlay(key, text)
  }

  /** `handle_keydown_event`: the events one key press posts, given the top of the stack,
      or the fatal error for a state without a handler. Escape is answered before the
      stack is consulted. */
  function HandleKeydown(top: Option<State>, key: Key, text: string): (r: Result<seq<Event>, Fatal>)
    ensures key == Escape ==> r == Success([StateChange(None)])
    ensures r.Failure? <==> key != Escape && top !in {Some(Menu), Some(Help), Some(Play)}
    ensures r.Failure? ==> r.error == UnknownState(top)
    ensures r.Failure? ==>
              Message(r.error) == "Unknown state: " + OptionalStateName(top) + ". No handling defined for state."
    ensures key != Escape && top == Some(Menu) ==>
              r == Success(if key == Space then [StateChange(Some(Play))] else [])
    ensures key != Escape && top == Some(Help) ==>
              r == Success(if key == Space || key == Return then [StateChange(None)] else [])
    ensures key != Escape && top == Some(Play) ==>
              r == Success(if key == F1 then [StateChange(Some(Help))] else [Input(Some(text), None)])
  {
    if key == Escape then Success([StateChange(None)])
    else
      match HandlerFor(top)
      case None => Failure(UnknownState(top))
      case Some(h) =>
        assert KeydownMenu(key) == if key == Space then [StateChange(Some(Play))] else [];
        assert KeydownPlay(key, text) ==
               if key == F1 then [StateChange(Some(Help))] else [Input(Some(text), None)];
        Success(RunHandler(h, key, text))
  }

  /** What the keyboard posts for one raw input during a Tick. */
  function PollOne(top: Option<State>, raw: RawInput): (r: Result<seq<Event>, Fatal>)
    ensures raw.WindowClose? ==> r == Success([Quit])
    ensures raw.Unhandled? ==> r == Success([])
    ensures raw.KeyDown? ==> r == HandleKeydown(top, raw.key, raw.text)
    ensures r.Success? ==> forall e :: e in r.value ==> e.Quit? || e.StateChange? || e.Input?
    ensures r.Failure? ==> raw.KeyDown? && raw.key != Escape && HandlerFor(top).None?
  {
    match raw
    case WindowClose => Success([Quit])
    case KeyDown(key, text) => HandleKeydown(top, key, text)
    case Unhandled => Success([])
  }

  /** The Escape tests inside the menu, help and play handlers are dead: the handlers
      only ever see keys other than Escape. Were they reached, the play handler would
      post a pop and an input for the same key. */
  lemma HandlersNeverSeeEscape(top: Option<State>, text: string)
    ensures HandleKeydown(top, Escape, text) == Success([StateChange(None)])
    ensures KeydownPlay(Escape, text) == [StateChange(None), Input(Some(text), None)]
    ensures KeydownMenu(Escape) == KeydownHelp(Escape) == [StateChange(None)]
  {
  }
}

=== FILE: decimal.dfy ===
/** Python's `str()` of an integer: decimal digits, with a leading '-' when negative. */
module Decimal {

  predicate IsDigit(c: char) {
    '0' <= c <= '9'
  }

  function DigitChar(d: nat): (c: char)
    requires d < 10
    ensures IsDigit(c)
  {
    (48 + d) as char
  }

  function DigitValue(c: char): nat {
    if IsDigit(c) then (c as int - 48) else 0
  }

  /** The decimal spelling of a natural number, without leading zeros. */
  function NatStr(n: nat): (s: string)
    ensures |s| > 0
    ensures forall i :: 0 <= i < |s| ==> IsDigit(s[i])
    ensures s[0] == '0' ==> n == 0
    decreases n
  {
    if n < 10 then [DigitChar(n)] else NatStr(n / 10) + [DigitChar(n % 10)]
  }

  function IntStr(n: int): (s: string)
    ensures |s| > 0
    ensures (s[0] == '-') <==> n < 0
  {
    if n < 0 then "-" + NatStr(-n) else NatStr(n)
  }

  /** A printed integer is digits after an optional sign, so it holds no comma. */
  lemma IntStrNoComma(n: int)
    ensures ',' !in IntStr(n)
  {
    if n < 0 {
      assert forall i :: 1 <= i < |IntStr(n)| ==> IntStr(n)[i] == NatStr(-n)[i - 1];
    }
  }

  /** Reads back a string of decimal digits. */
  function ParseNat(s: string): nat
    decreases |s|
  {
    if |s| == 0 then 0 else ParseNat(s[..|s| - 1]) * 10 + DigitValue(s[|s| - 1])
  }

  function ParseInt(s: string): int {
    if |s| > 0 && s[0] == '-' then -(ParseNat(s[1..]) as int) else ParseNat(s)
  }

  lemma {:induction false} NatStrRoundTrip(n: nat)
    ensures ParseNat(NatStr(n)) == n
    decreases n
  {
    if n >= 10 {
      var s := NatStr(n);
      assert s[..|s| - 1] == NatStr(n / 10);
      NatStrRoundTrip(n / 10);
    }
  }

  /** Printing an integer loses nothing: the printed text determines the number. */
  lemma IntStrRoundTrip(n: int)
    ensures ParseInt(IntStr(n)) == n
  {
    if n < 0 {
      assert IntStr(n)[1..] == NatStr(-n);
      NatStrRoundTrip(-n);
    } else {
      NatStrRoundTrip(n);
    }
  }
}

=== FILE: dispatch.dfy ===
/** The running application: the listeners registered with the event manager, the
    synchronous nested `Post` of eventmanager.py over them, and `GameEngine.run`.
    A listener's `notify` may post further events before it returns; each such post is
    delivered in full, to every registered listener, before the outer delivery goes on. */
module Dispatch {
  import opened Wrappers
  import opened StateMachine
  import opened Events
  import EventManager
  import Model
  import Controller
  import View

  /** The three listener objects of the application. */
  datatype Listener = EngineListener | KeyboardListener | ViewListener

  /** Everything a post can read or change: the registry, the engine, the view, and
      the raw inputs pygame holds until the keyboard drains them on a Tick. */
  datatype World = World(
    registry: seq<Listener>,
    engine: Model.GameEngine,
    view: View.GraphicalView,
    pending: seq<Controller.RawInput>)

  /** One call of `listener.notify(event)`. */
  datatype Delivery = Delivery(listener: Listener, event: Event)

  /** What a piece of work produced, in order: the events passed to `Post`, the
      `notify` calls made, the printed lines, and the view's requests to pygame. */
  datatype Effects = Effects(
    posted: seq<Event>,
    trace: seq<Delivery>,
    log: seq<string>,
    screen: seq<View.Output>)
  {
    function Then(next: Effects): Effects {
      Effects(posted + next.posted, trace + next.trace, log + next.log, screen + next.screen)
    }
  }

  const NoEffects := Effects([], [], [], [])

  datatype Step = Step(world: World, fx: Effects)

  /** A post either completes or is aborted by the keyboard's unknown-state exception. */
  type Outcome = Result<Step, Controller.Fatal>

  /** The events a listener posts from inside `notify`. */
  predicate Nested(e: Event) {
    e.Quit? || e.StateChange? || e.Input?
  }

  /** The listeners notified with `e`, in call order. */
  function Project(trace: seq<Delivery>, e: Event): seq<Listener>
    decreases |trace|
  {
    if |trace| == 0 then []
    else (if trace[0].event == e then [trace[0].listener] else []) + Project(trace[1..], e)
  }

  /** The engine after it has handled, in order, the deliveries addressed to it. */
  function EngineFold(g: Model.GameEngine, trace: seq<Delivery>): Model.GameEngine
    decreases |trace|
  {
    if |trace| == 0 then g
    else
      var g' := if trace[0].listener == EngineListener then Model.Notify(g, trace[0].event).engine else g;
      EngineFold(g', trace[1..])
  }

  /** The view after it has handled, in order, the deliveries addressed to it. */
  function ViewFold(v: View.GraphicalView, trace: seq<Delivery>): View.GraphicalView
    decreases |trace|
  {
    if |trace| == 0 then v
    else
      var v' := if trace[0].listener == ViewListener then View.Lifecycle(v, trace[0].event) else v;
      ViewFold(v', trace[1..])
  }

  /** What the view asks of pygame along a trace: at each of its deliveries, what its
      `notify` outputs for the event, reading `peek()` of the engine as the deliveries before
      it have left the engine. */
  function ScreenFold(g: Model.GameEngine, v: View.GraphicalView, trace: seq<Delivery>): seq<View.Output>
    decreases |trace|
  {
    if |trace| == 0 then []
    else
      var d := trace[0];
      var out := if d.listener == ViewListener then View.Notify(v, d.event, Peek(g.stack)).outputs else [];
      var g' := if d.listener == EngineListener then Model.Notify(g, d.event).engine else g;
      var v' := if d.listener == ViewListener then View.Lifecycle(v, d.event) else v;
      out + ScreenFold(g', v', trace[1..])
  }

  /** What every post guarantees about the work `s` it did from `w`: the registry is
      untouched and only its members are notified; every posted event reaches every
      registered listener; exactly the non-Tick posts are printed; the engine and the
      view change only by handling their own deliveries (no listener writes another's state);
      and all that reaches the screen is what the view outputs at its own deliveries. */
  ghost predicate FramedApartFromQueue(w: World, s: Step) {
    && s.world.registry == w.registry
    && (forall d :: d in s.fx.trace ==> d.listener in w.registry)
    && (forall ev, l :: ev in s.fx.posted && l in w.registry ==> Delivery(l, ev) in s.fx.trace)
    && s.fx.log == EventManager.LogOf(s.fx.posted)
    && s.world.engine == EngineFold(w.engine, s.fx.trace)
    && s.world.view == ViewFold(w.view, s.fx.trace)
    && s.fx.screen == ScreenFold(w.engine, w.view, s.fx.trace)
  }

  /** `FramedApartFromQueue`, and pygame's queue is emptied exactly when the keyboard is
      notified of a Tick. */
  ghost predicate Framed(w: World, s: Step) {
    && FramedApartFromQueue(w, s)
    && s.world.pending == (if Delivery(KeyboardListener, Tick) in s.fx.trace then [] else w.pending)
  }

  /** What the keyboard's Tick handling promises about the raw inputs it drained, whatever
      the state: a window close posts Quit, and an Escape press posts a pop request. */
  ghost predicate Answered(raws: seq<Controller.RawInput>, posted: seq<Event>) {
    && (Controller.WindowClose in raws ==> Quit in posted)
    && (forall t :: Controller.KeyDown(Controller.Escape, t) in raws ==> StateChange(None) in posted)
  }

  /** While a registered engine runs, it has a state. */
  ghost predicate Inv(w: World) {
    EngineListener in w.registry && w.engine.running ==> |w.engine.stack| > 0
  }

  /** Everything in `fx` was posted from inside a handler of an event of rank `bound`. */
  ghost predicate Below(fx: Effects, bound: nat) {
    && (forall ev :: ev in fx.posted ==> Nested(ev) && Rank(ev) < bound)
    && (forall d :: d in fx.trace ==> Rank(d.event) < bound)
  }

  /** Only posted events are delivered. */
  ghost predicate Traced(fx: Effects) {
    forall d :: d in fx.trace ==> d.event in fx.posted
  }

  /** What `Post(e)` guarantees about the work `s` it did from `w`: `e` is posted first,
      then only events of smaller rank from inside handlers; and the listeners notified
      with `e` are exactly the registry, in order, each once per entry. */
  ghost predicate PostSpec(e: Event, w: World, s: Step) {
    && Framed(w, s) && (Inv(w) ==> Inv(s.world))
    && |s.fx.posted| > 0 && s.fx.posted[0] == e
    && (forall ev :: ev in s.fx.posted[1..] ==> Nested(ev) && Rank(ev) < Rank(e))
    && (forall d :: d in s.fx.trace ==> d.event == e || Rank(d.event) < Rank(e))
    && Project(s.fx.trace, e) == w.registry
    && Traced(s.fx)
    && (e.Tick? && KeyboardListener in w.registry ==> Answered(w.pending, s.fx.posted))
  }

  ghost predicate DeliverSpec(ls: seq<Listener>, e: Event, w: World, s: Step) {
    && Framed(w, s) && (Inv(w) ==> Inv(s.world))
    && (forall ev :: ev in s.fx.posted ==> Nested(ev) && Rank(ev) < Rank(e))
    && (forall d :: d in s.fx.trace ==> d.event == e || Rank(d.event) < Rank(e))
    && Project(s.fx.trace, e) == ls
    && (forall l :: l in ls ==> Delivery(l, e) in s.fx.trace)
    && (forall d :: d in s.fx.trace ==> d.event == e || d.event in s.fx.posted)
    && (e.Tick? && KeyboardListener in ls ==> Answered(w.pending, s.fx.posted))
  }

  ghost predicate NotifySpec(l: Listener, e: Event, w: World, s: Step) {
    && Framed(w, s) && (Inv(w) ==> Inv(s.world))
    && |s.fx.trace| > 0 && s.fx.trace[0] == Delivery(l, e)
    && Below(Effects(s.fx.posted, s.fx.trace[1..], [], []), Rank(e))
    && Traced(Effects(s.fx.posted, s.fx.trace[1..], [], []))
    && (l == KeyboardListener && e.Tick? ==> Answered(w.pending, s.fx.posted))
  }

  ghost predicate EachSpec(es: seq<Event>, w: World, bound: nat, s: Step) {
    && Framed(w, s) && (Inv(w) ==> Inv(s.world))
    && Below(s.fx, bound)
    && (forall x :: x in es ==> x in s.fx.posted)
    && Traced(s.fx)
  }

  ghost predicate PollSpec(raws: seq<Controller.RawInput>, w: World, s: Step) {
    && Framed(w, s) && (Inv(w) ==> Inv(s.world)) && Below(s.fx, 2) && Traced(s.fx)
    && Answered(raws, s.fx.posted)
  }

  /** `EventManager.Post(event)`: print the event unless it is a Tick, then call
      `notify(event)` on each registered listener in turn. What the work satisfies is
      `PostSpec`, established by `PostMeetsSpec`. */
  function Post(e: Event, w: World): (r: Outcome)
    ensures !e.Tick? ==> r.Success?
    ensures r.Success? ==> r.value.world.registry == w.registry
    decreases Rank(e), 3, 0, 0
  {
    var s :- Deliver(w.registry, e, w);
    Success(Step(s.world, Effects([e], [], EventManager.LogLine(e), []).Then(s.fx)))
  }

  /** The loop of `Post` over the listeners `ls`, each notified in turn. */
  function Deliver(ls: seq<Listener>, e: Event, w: World): (r: Outcome)
    requires forall l :: l in ls ==> l in w.registry
    ensures !e.Tick? ==> r.Success?
    ensures r.Success? ==> r.value.world.registry == w.registry
    decreases Rank(e), 2, |ls|, 0
  {
    if |ls| == 0 then
      Success(Step(w, NoEffects))
    else
      var s1 :- Notify(ls[0], e, w);
      var s2 :- Deliver(ls[1..], e, s1.world);
      Success(Step(s2.world, s1.fx.Then(s2.fx)))
  }

  /** `listener.notify(event)` for each of the three listeners. */
  function Notify(l: Listener, e: Event, w: World): (r: Outcome)
    requires l in w.registry
    ensures !e.Tick? ==> r.Success?
    ensures r.Success? ==> r.value.world.registry == w.registry
    decreases Rank(e), 1, 0, 0
  {
    match l
    case EngineListener =>
      var reaction := Model.Notify(w.engine, e);
      var s := PostEach(reaction.posts, w.(engine := reaction.engine), Rank(e)).value;
      Success(Step(s.world, Effects([], [Delivery(l, e)], [], []).Then(s.fx)))
    case KeyboardListener =>
      if !e.Tick? then
        Success(Step(w, Effects([], [Delivery(l, e)], [], [])))
      else
        var s :- Poll(w.pending, w.(pending := []));
        Success(Step(s.world, Effects([], [Delivery(l, e)], [], []).Then(s.fx)))
    case ViewListener =>
      var reaction := View.Notify(w.view, e, Peek(w.engine.stack));
      Success(Step(w.(view := reaction.view), Effects([], [Delivery(l, e)], [], reaction.outputs)))
  }

  /** Posts the events `es` one after the other, as a handler does. */
  function PostEach(es: seq<Event>, w: World, bound: nat): (r: Outcome)
    requires forall x :: x in es ==> Nested(x) && Rank(x) < bound
    ensures r.Success? && r.value.world.registry == w.registry
    decreases bound, 0, 0, |es|
  {
    if |es| == 0 then
      Success(Step(w, NoEffects))
    else
      assert es[0] in es && Nested(es[0]) && Rank(es[0]) < bound;
      assert forall x :: x in es[1..] ==> x in es;
      var s1 := Post(es[0], w).value;
      var s2 := PostEach(es[1..], s1.world, bound).value;
      Success(Step(s2.world, s1.fx.Then(s2.fx)))
  }

  /** The keyboard's Tick handling: every raw input taken from pygame's queue, in order,
      with the top of the stack read afresh for each key press. */
  function Poll(raws: seq<Controller.RawInput>, w: World): (r: Outcome)
    ensures r.Success? ==> r.value.world.registry == w.registry
    decreases 2, 0, |raws|, 0
  {
    if |raws| == 0 then
      Success(Step(w, NoEffects))
    else
      match Controller.PollOne(Peek(w.engine.stack), raws[0])
      case Failure(f) => Failure(f)
      case Success(posts) =>
        var s1 := PostEach(posts, w, 2).value;
        var s2 :- Poll(raws[1..], s1.world);
        Success(Step(s2.world, s1.fx.Then(s2.fx)))
  }

  /** Whatever `Post(e)` does from `w` satisfies `PostSpec`; the five lemmas below follow
      the recursion of the five functions above. */
  lemma {:induction false} PostMeetsSpec(e: Event, w: World)
    ensures Post(e, w).Success? ==> PostSpec(e, w, Post(e, w).value)
    decreases Rank(e), 3, 0, 0
  {
    DeliverMeetsSpec(w.registry, e, w);
    var d := Deliver(w.registry, e, w);
    if d.Success? {
      PostFromDeliver(e, w, d.value);
    }
  }

  lemma {:induction false} DeliverMeetsSpec(ls: seq<Listener>, e: Event, w: World)
    requires forall l :: l in ls ==> l in w.registry
    ensures Deliver(ls, e, w).Success? ==> DeliverSpec(ls, e, w, Deliver(ls, e, w).value)
    decreases Rank(e), 2, |ls|, 0
  {
    if |ls| == 0 {
      FramedNothing(w);
    } else {
      NotifyMeetsSpec(ls[0], e, w);
      var r1 := Notify(ls[0], e, w);
      if r1.Success? {
        DeliverMeetsSpec(ls[1..], e, r1.value.world);
        var r2 := Deliver(ls[1..], e, r1.value.world);
        if r2.Success? {
          DeliverCons(ls, e, w, r1.value, r2.value);
        }
      }
    }
  }

  lemma {:induction false} NotifyMeetsSpec(l: Listener, e: Event, w: World)
    requires l in w.registry
    ensures Notify(l, e, w).Success? ==> NotifySpec(l, e, w, Notify(l, e, w).value)
    decreases Rank(e), 1, 0, 0
  {
    match l
    case EngineListener =>
      var reaction := Model.Notify(w.engine, e);
      var w1 := w.(engine := reaction.engine);
      PostEachMeetsSpec(reaction.posts, w1, Rank(e));
      NotifyEngine(e, w, PostEach(reaction.posts, w1, Rank(e)).value);
    case KeyboardListener =>
      if !e.Tick? {
        NotifyQuiet(l, e, w, w, []);
      } else {
        PollMeetsSpec(w.pending, w.(pending := []));
        var p := Poll(w.pending, w.(pending := []));
        if p.Success? {
          NotifyKeyboard(w, p.value);
        }
      }
    case ViewListener =>
      var reaction := View.Notify(w.view, e, Peek(w.engine.stack));
      NotifyQuiet(l, e, w, w.(view := reaction.view), reaction.outputs);
  }

  lemma {:induction false} PostEachMeetsSpec(es: seq<Event>, w: World, bound: nat)
    requires forall x :: x in es ==> Nested(x) && Rank(x) < bound
    ensures EachSpec(es, w, bound, PostEach(es, w, bound).value)
    decreases bound, 0, 0, |es|
  {
    if |es| == 0 {
      FramedNothing(w);
    } else {
      assert es[0] in es && Nested(es[0]) && Rank(es[0]) < bound;
      assert forall x :: x in es[1..] ==> x in es;
      PostMeetsSpec(es[0], w);
      var s1 := Post(es[0], w).value;
      PostEachMeetsSpec(es[1..], s1.world, bound);
      EachCons(es, w, bound, s1, PostEach(es[1..], s1.world, bound).value);
    }
  }

  lemma {:induction false} PollMeetsSpec(raws: seq<Controller.RawInput>, w: World)
    ensures Poll(raws, w).Success? ==> PollSpec(raws, w, Poll(raws, w).value)
    decreases 2, 0, |raws|, 0
  {
    if |raws| == 0 {
      FramedNothing(w);
    } else {
      match Controller.PollOne(Peek(w.engine.stack), raws[0])
      case Failure(_) =>
      case Success(posts) =>
        PostEachMeetsSpec(posts, w, 2);
        var s1 := PostEach(posts, w, 2).value;
        PollMeetsSpec(raws[1..], s1.world);
        var r2 := Poll(raws[1..], s1.world);
        if r2.Success? {
          PollCons(raws, w, posts, s1, r2.value);
        }
    }
  }

  /** `Deliver` on a list of listeners is the first one's notification followed by the
      rest. */
  lemma DeliverStep(ls: seq<Listener>, e: Event, w: World, s1: Step, s2: Step)
    requires |ls| > 0 && forall l :: l in ls ==> l in w.registry
    requires Notify(ls[0], e, w) == Success(s1)
    requires s1.world.registry == w.registry
    requires Deliver(ls[1..], e, s1.world) == Success(s2)
    ensures Deliver(ls, e, w) == Success(Step(s2.world, s1.fx.Then(s2.fx)))
  {
  }

  /** `PostEach` is the first post followed by the rest. */
  lemma PostEachStep(es: seq<Event>, w: World, bound: nat, s1: Step, s2: Step)
    requires |es| > 0 && forall x :: x in es ==> Nested(x) && Rank(x) < bound
    requires Post(es[0], w) == Success(s1)
    requires PostEach(es[1..], s1.world, bound) == Success(s2)
    ensures PostEach(es, w, bound) == Success(Step(s2.world, s1.fx.Then(s2.fx)))
  {
  }

  lemma FramedNothing(w: World)
    ensures Framed(w, Step(w, NoEffects))
  {
  }

  lemma PostFromDeliver(e: Event, w: World, s: Step)
    requires DeliverSpec(w.registry, e, w, s)
    ensures PostSpec(e, w, Step(s.world, Effects([e], [], EventManager.LogLine(e), []).Then(s.fx)))
  {
    PostFramed(e, w, s);
    PostEvents(e, w, s);
    AnsweredGrows(w.pending, s.fx.posted, [e] + s.fx.posted);
  }

  /** Posting more events keeps every raw input answered. */
  lemma AnsweredGrows(raws: seq<Controller.RawInput>, p: seq<Event>, q: seq<Event>)
    requires forall ev :: ev in p ==> ev in q
    ensures Answered(raws, p) ==> Answered(raws, q)
  {
  }

  lemma PostFramed(e: Event, w: World, s: Step)
    requires DeliverSpec(w.registry, e, w, s)
    ensures var fx := Effects([e], [], EventManager.LogLine(e), []).Then(s.fx);
            Framed(w, Step(s.world, fx)) && (Inv(w) ==> Inv(s.world))
  {
    var fx := Effects([e], [], EventManager.LogLine(e), []).Then(s.fx);
    assert fx.trace == s.fx.trace && fx.posted == [e] + s.fx.posted && fx.screen == s.fx.screen;
    EventManager.LogOfConcat([e], s.fx.posted);
    assert EventManager.LogOf([e]) == EventManager.LogLine(e);
  }

  lemma PostEvents(e: Event, w: World, s: Step)
    requires DeliverSpec(w.registry, e, w, s)
    ensures var fx := Effects([e], [], EventManager.LogLine(e), []).Then(s.fx);
            && |fx.posted| > 0 && fx.posted[0] == e
            && (forall ev :: ev in fx.posted[1..] ==> Nested(ev) && Rank(ev) < Rank(e))
            && (forall d :: d in fx.trace ==> d.event == e || Rank(d.event) < Rank(e))
            && Project(fx.trace, e) == w.registry
            && Traced(fx)
  {
    var fx := Effects([e], [], EventManager.LogLine(e), []).Then(s.fx);
    assert fx.trace == s.fx.trace && fx.posted[1..] == s.fx.posted;
  }

  lemma DeliverCons(ls: seq<Listener>, e: Event, w: World, s1: Step, s2: Step)
    requires |ls| > 0
    requires NotifySpec(ls[0], e, w, s1)
    requires DeliverSpec(ls[1..], e, s1.world, s2)
    ensures DeliverSpec(ls, e, w, Step(s2.world, s1.fx.Then(s2.fx)))
  {
    FramedThen(w, s1, s2);
    DeliverConsEvents(ls, e, w, s1, s2);
    DeliverConsListeners(ls, e, w, s1, s2);
    DeliverConsAnswered(ls, e, w, s1, s2);
  }

  /** On a Tick, the keyboard drains the queue it finds when its turn comes; the listeners
      before it leave that queue alone. */
  lemma DeliverConsAnswered(ls: seq<Listener>, e: Event, w: World, s1: Step, s2: Step)
    requires |ls| > 0 && |s1.fx.trace| > 0 && s1.fx.trace[0] == Delivery(ls[0], e)
    requires forall d :: d in s1.fx.trace[1..] ==> Rank(d.event) < Rank(e)
    requires s1.world.pending == (if Delivery(KeyboardListener, Tick) in s1.fx.trace then [] else w.pending)
    requires ls[0] == KeyboardListener && e.Tick? ==> Answered(w.pending, s1.fx.posted)
    requires e.Tick? && KeyboardListener in ls[1..] ==> Answered(s1.world.pending, s2.fx.posted)
    ensures e.Tick? && KeyboardListener in ls ==> Answered(w.pending, s1.fx.posted + s2.fx.posted)
  {
    if e.Tick? && KeyboardListener in ls {
      if ls[0] == KeyboardListener {
        AnsweredGrows(w.pending, s1.fx.posted, s1.fx.posted + s2.fx.posted);
      } else {
        assert ls == [ls[0]] + ls[1..];
        assert s1.fx.trace == [Delivery(ls[0], e)] + s1.fx.trace[1..];
        assert Delivery(KeyboardListener, Tick) !in s1.fx.trace;
        AnsweredGrows(w.pending, s2.fx.posted, s1.fx.posted + s2.fx.posted);
      }
    }
  }

  lemma DeliverConsEvents(ls: seq<Listener>, e: Event, w: World, s1: Step, s2: Step)
    requires |ls| > 0
    requires NotifySpec(ls[0], e, w, s1)
    requires DeliverSpec(ls[1..], e, s1.world, s2)
    ensures var fx := s1.fx.Then(s2.fx);
            && (forall ev :: ev in fx.posted ==> Nested(ev) && Rank(ev) < Rank(e))
            && (forall d :: d in fx.trace ==> d.event == e || Rank(d.event) < Rank(e))
            && (forall d :: d in fx.trace ==> d.event == e || d.event in fx.posted)
  {
    assert s1.fx.trace == [Delivery(ls[0], e)] + s1.fx.trace[1..];
  }

  lemma DeliverConsListeners(ls: seq<Listener>, e: Event, w: World, s1: Step, s2: Step)
    requires |ls| > 0
    requires NotifySpec(ls[0], e, w, s1)
    requires DeliverSpec(ls[1..], e, s1.world, s2)
    ensures var fx := s1.fx.Then(s2.fx);
            && Project(fx.trace, e) == ls
            && (forall l :: l in ls ==> Delivery(l, e) in fx.trace)
  {
    ProjectConcat(s1.fx.trace, s2.fx.trace, e);
    assert s1.fx.trace == [Delivery(ls[0], e)] + s1.fx.trace[1..];
    ProjectConcat([Delivery(ls[0], e)], s1.fx.trace[1..], e);
    ProjectOthers(s1.fx.trace[1..], e);
    assert ls == [ls[0]] + ls[1..];
  }

  lemma NotifyQuiet(l: Listener, e: Event, w: World, w': World, outputs: seq<View.Output>)
    requires l in w.registry
    requires w'.registry == w.registry
    requires w'.engine == EngineFold(w.engine, [Delivery(l, e)])
    requires w'.view == ViewFold(w.view, [Delivery(l, e)])
    requires Delivery(l, e) != Delivery(KeyboardListener, Tick) && w'.pending == w.pending
    requires Inv(w) ==> Inv(w')
    requires outputs == ScreenFold(w.engine, w.view, [Delivery(l, e)])
    ensures NotifySpec(l, e, w, Step(w', Effects([], [Delivery(l, e)], [], outputs)))
  {
  }

  lemma NotifyEngine(e: Event, w: World, s: Step)
    requires EngineListener in w.registry
    requires EachSpec(Model.Notify(w.engine, e).posts, w.(engine := Model.Notify(w.engine, e).engine), Rank(e), s)
    ensures NotifySpec(EngineListener, e, w, Step(s.world, Effects([], [Delivery(EngineListener, e)], [], []).Then(s.fx)))
  {
    var reaction := Model.Notify(w.engine, e);
    var w1 := w.(engine := reaction.engine);
    var here := Effects([], [Delivery(EngineListener, e)], [], []);
    assert EngineFold(w.engine, here.trace) == w1.engine;
    FramedThen(w, Step(w1, here), s);
    EngineRunning(w1.engine, s.fx.trace);
    assert (here.Then(s.fx)).trace[1..] == s.fx.trace;
    if Inv(w) && !Inv(w1) {
      assert Quit in s.fx.posted;
    }
  }

  lemma NotifyKeyboard(w: World, s: Step)
    requires KeyboardListener in w.registry
    requires PollSpec(w.pending, w.(pending := []), s)
    ensures NotifySpec(KeyboardListener, Tick, w, Step(s.world, Effects([], [Delivery(KeyboardListener, Tick)], [], []).Then(s.fx)))
  {
    var here := Effects([], [Delivery(KeyboardListener, Tick)], [], []);
    FramedThen(w, Step(w.(pending := []), here), s);
    assert (here.Then(s.fx)).trace[1..] == s.fx.trace;
    assert (here.Then(s.fx)).posted == s.fx.posted;
  }

  /** The keyboard's handling of one raw input followed by the rest of the queue. */
  lemma PollCons(raws: seq<Controller.RawInput>, w: World, posts: seq<Event>, s1: Step, s2: Step)
    requires |raws| > 0 && Controller.PollOne(Peek(w.engine.stack), raws[0]) == Success(posts)
    requires EachSpec(posts, w, 2, s1)
    requires PollSpec(raws[1..], s1.world, s2)
    ensures PollSpec(raws, w, Step(s2.world, s1.fx.Then(s2.fx)))
  {
    FramedThen(w, s1, s2);
    var posted := s1.fx.posted + s2.fx.posted;
    assert raws == [raws[0]] + raws[1..];
    if Controller.WindowClose in raws && raws[0] != Controller.WindowClose {
      assert Controller.WindowClose in raws[1..];
    }
    forall t | Controller.KeyDown(Controller.Escape, t) in raws
      ensures StateChange(None) in posted
    {
      if raws[0] != Controller.KeyDown(Controller.Escape, t) {
        assert Controller.KeyDown(Controller.Escape, t) in raws[1..];
      }
    }
  }

  lemma EachCons(es: seq<Event>, w: World, bound: nat, s1: Step, s2: Step)
    requires |es| > 0 && Nested(es[0]) && Rank(es[0]) < bound
    requires PostSpec(es[0], w, s1)
    requires EachSpec(es[1..], s1.world, bound, s2)
    ensures EachSpec(es, w, bound, Step(s2.world, s1.fx.Then(s2.fx)))
  {
    FramedThen(w, s1, s2);
    assert s1.fx.posted == [es[0]] + s1.fx.posted[1..];
  }

  lemma {:induction false} ProjectConcat(a: seq<Delivery>, b: seq<Delivery>, e: Event)
    ensures Project(a + b, e) == Project(a, e) + Project(b, e)
    decreases |a|
  {
    if |a| > 0 {
      assert (a + b)[1..] == a[1..] + b;
      ProjectConcat(a[1..], b, e);
    } else {
      assert a + b == b;
    }
  }

  lemma {:induction false} ProjectOthers(t: seq<Delivery>, e: Event)
    requires forall d :: d in t ==> Rank(d.event) < Rank(e)
    ensures Project(t, e) == []
    decreases |t|
  {
    if |t| > 0 {
      ProjectOthers(t[1..], e);
    }
  }

  lemma {:induction false} EngineFoldConcat(g: Model.GameEngine, a: seq<Delivery>, b: seq<Delivery>)
    ensures EngineFold(g, a + b) == EngineFold(EngineFold(g, a), b)
    decreases |a|
  {
    if |a| > 0 {
      assert (a + b)[1..] == a[1..] + b;
      var g' := if a[0].listener == EngineListener then Model.Notify(g, a[0].event).engine else g;
      EngineFoldConcat(g', a[1..], b);
    } else {
      assert a + b == b;
    }
  }

  lemma {:induction false} ViewFoldConcat(v: View.GraphicalView, a: seq<Delivery>, b: seq<Delivery>)
    ensures ViewFold(v, a + b) == ViewFold(ViewFold(v, a), b)
    decreases |a|
  {
    if |a| > 0 {
      assert (a + b)[1..] == a[1..] + b;
      var v' := if a[0].listener == ViewListener then View.Lifecycle(v, a[0].event) else v;
      ViewFoldConcat(v', a[1..], b);
    } else {
      assert a + b == b;
    }
  }

  /** The engine keeps running exactly until it is notified of a Quit. */
  lemma {:induction false} EngineRunning(g: Model.GameEngine, t: seq<Delivery>)
    ensures EngineFold(g, t).running == (g.running && Delivery(EngineListener, Quit) !in t)
    decreases |t|
  {
    if |t| > 0 {
      var g' := if t[0].listener == EngineListener then Model.Notify(g, t[0].event).engine else g;
      EngineRunning(g', t[1..]);
    }
  }

  /** Two pieces of work done one after the other keep the guarantees of each. */
  lemma FramedThen(w: World, a: Step, b: Step)
    requires Framed(w, a) && Framed(a.world, b)
    ensures Framed(w, Step(b.world, a.fx.Then(b.fx)))
  {
    FramedApartThen(w, a, b);
  }

  lemma FramedApartThen(w: World, a: Step, b: Step)
    requires FramedApartFromQueue(w, a) && FramedApartFromQueue(a.world, b)
    ensures FramedApartFromQueue(w, Step(b.world, a.fx.Then(b.fx)))
  {
    EventManager.LogOfConcat(a.fx.posted, b.fx.posted);
    EngineFoldConcat(w.engine, a.fx.trace, b.fx.trace);
    ViewFoldConcat(w.view, a.fx.trace, b.fx.trace);
    ScreenFoldConcat(w.engine, w.view, a.fx.trace, b.fx.trace);
  }

  lemma {:induction false} ScreenFoldConcat(g: Model.GameEngine, v: View.GraphicalView, a: seq<Delivery>, b: seq<Delivery>)
    ensures ScreenFold(g, v, a + b) == ScreenFold(g, v, a) + ScreenFold(EngineFold(g, a), ViewFold(v, a), b)
    decreases |a|
  {
    if |a| > 0 {
      assert (a + b)[1..] == a[1..] + b;
      var d := a[0];
      var g' := if d.listener == EngineListener then Model.Notify(g, d.event).engine else g;
      var v' := if d.listener == ViewListener then View.Lifecycle(v, d.event) else v;
      ScreenFoldConcat(g', v', a[1..], b);
    } else {
      assert a + b == b;
    }
  }

  /** One delivery of `e` to each of `ls`, in order. */
  function Fanout(ls: seq<Listener>, e: Event): (t: seq<Delivery>)
    ensures |t| == |ls|
    ensures forall l :: Delivery(l, e) in t <==> l in ls
    decreases |ls|
  {
    if |ls| == 0 then [] else [Delivery(ls[0], e)] + Fanout(ls[1..], e)
  }

  lemma {:induction false} TraceIsFanout(t: seq<Delivery>, e: Event)
    requires forall d :: d in t ==> d.event == e
    ensures t == Fanout(Project(t, e), e)
    decreases |t|
  {
    if |t| > 0 {
      TraceIsFanout(t[1..], e);
    }
  }

  lemma {:induction false} EngineFoldFanout(g: Model.GameEngine, ls: seq<Listener>, e: Event)
    requires EventManager.NoDuplicates(ls)
    ensures EngineFold(g, Fanout(ls, e)) == if EngineListener in ls then Model.Notify(g, e).engine else g
    decreases |ls|
  {
    if |ls| > 0 {
      EventManager.NoDuplicatesTail(ls);
      var g' := if ls[0] == EngineListener then Model.Notify(g, e).engine else g;
      EngineFoldFanout(g', ls[1..], e);
      assert ls[0] == EngineListener ==> EngineListener !in ls[1..];
    }
  }

  lemma {:induction false} ViewFoldFanout(v: View.GraphicalView, ls: seq<Listener>, e: Event)
    requires EventManager.NoDuplicates(ls)
    ensures ViewFold(v, Fanout(ls, e)) == if ViewListener in ls then View.Lifecycle(v, e) else v
    decreases |ls|
  {
    if |ls| > 0 {
      EventManager.NoDuplicatesTail(ls);
      var v' := if ls[0] == ViewListener then View.Lifecycle(v, e) else v;
      ViewFoldFanout(v', ls[1..], e);
      assert ls[0] == ViewListener ==> ViewListener !in ls[1..];
    }
  }

  /** Delivering an event to which no listener of `ls` reacts by posting posts nothing.
      A Tick is such an event when pygame holds no input for the keyboard. */
  lemma {:induction false} SilentDeliver(ls: seq<Listener>, e: Event, w: World)
    requires e.Tick? ==> w.pending == []
    requires forall l :: l in ls ==> l in w.registry
    requires EventManager.NoDuplicates(ls)
    requires EngineListener in ls ==> Model.Notify(w.engine, e).posts == []
    ensures Deliver(ls, e, w).Success? && Deliver(ls, e, w).value.fx.posted == []
    ensures Deliver(ls, e, w).value.world.pending == w.pending
    ensures e.StateChange? || e.Input? ==> Deliver(ls, e, w).value.fx.screen == []
    decreases |ls|
  {
    if |ls| > 0 {
      SilentNotify(ls[0], e, w);
      var s1 := Notify(ls[0], e, w).value;
      EventManager.NoDuplicatesTail(ls);
      SilentDeliver(ls[1..], e, s1.world);
    }
  }

  /** One listener that does not answer `e` with a post. */
  lemma SilentNotify(l: Listener, e: Event, w: World)
    requires e.Tick? ==> w.pending == []
    requires l in w.registry
    requires l == EngineListener ==> Model.Notify(w.engine, e).posts == []
    ensures var r := Notify(l, e, w);
            && r.Success? && r.value.fx.posted == [] && r.value.world.pending == w.pending
            && (l != EngineListener ==> r.value.world.engine == w.engine)
            && (e.StateChange? || e.Input? ==> r.value.fx.screen == [])
  {
    match l
    case EngineListener =>
      var reaction := Model.Notify(w.engine, e);
      assert PostEach(reaction.posts, w.(engine := reaction.engine), Rank(e)).value.fx == NoEffects;
    case KeyboardListener =>
      if e.Tick? {
        assert Poll([], w.(pending := [])) == Success(Step(w.(pending := []), NoEffects));
      }
    case ViewListener =>
  }

  /** Posting an event that no registered listener answers with a post of its own: it is
      printed unless it is a Tick, each listener is notified once, and only the engine's
      and the view's own handlers change their state. */
  lemma SilentPost(e: Event, w: World)
    requires e.Tick? ==> w.pending == []
    requires EventManager.NoDuplicates(w.registry)
    requires EngineListener in w.registry ==> Model.Notify(w.engine, e).posts == []
    ensures var r := Post(e, w);
            && r.Success?
            && r.value.fx.posted == [e]
            && r.value.fx.trace == Fanout(w.registry, e)
            && r.value.fx.log == EventManager.LogLine(e)
            && r.value.world.registry == w.registry
            && r.value.world.pending == w.pending
            && (e.StateChange? || e.Input? ==> r.value.fx.screen == [])
            && r.value.world.engine == (if EngineListener in w.registry then Model.Notify(w.engine, e).engine else w.engine)
            && r.value.world.view == (if ViewListener in w.registry then View.Lifecycle(w.view, e) else w.view)
  {
    SilentTrace(e, w);
    PostMeetsSpec(e, w);
    EngineFoldFanout(w.engine, w.registry, e);
    ViewFoldFanout(w.view, w.registry, e);
    assert EventManager.LogOf([e]) == EventManager.LogLine(e);
  }

  lemma SilentTrace(e: Event, w: World)
    requires e.Tick? ==> w.pending == []
    requires EventManager.NoDuplicates(w.registry)
    requires EngineListener in w.registry ==> Model.Notify(w.engine, e).posts == []
    ensures var r := Post(e, w);
            && r.Success?
            && r.value.fx.posted == [e]
            && r.value.fx.trace == Fanout(w.registry, e)
            && r.value.world.pending == w.pending
            && (e.StateChange? || e.Input? ==> r.value.fx.screen == [])
  {
    SilentDeliver(w.registry, e, w);
    PostMeetsSpec(e, w);
    var s := Post(e, w).value;
    assert s.fx.posted == [e];
    TraceIsFanout(s.fx.trace, e);
  }

  /** A pop request delivered while the engine's pop will leave no state: the engine, when
      its turn comes, pops and posts one Quit, which stops it; nobody else posts. */
  lemma {:induction false} PoppingDeliver(ls: seq<Listener>, w: World)
    requires forall l :: l in ls ==> l in w.registry
    requires EventManager.NoDuplicates(ls) && EventManager.NoDuplicates(w.registry)
    requires EngineListener in w.registry
    requires EngineListener in ls ==> |w.engine.stack| <= 1
    ensures var r := Deliver(ls, StateChange(None), w);
            && r.Success?
            && r.value.fx.posted == (if EngineListener in ls then [Quit] else [])
            && r.value.world.engine ==
               (if EngineListener in ls then Model.GameEngine(false, Pop(w.engine.stack).stack) else w.engine)
    decreases |ls|
  {
    var e := StateChange(None);
    if |ls| > 0 {
      EventManager.NoDuplicatesTail(ls);
      if ls[0] == EngineListener {
        PoppingHead(ls, w);
      } else {
        SilentNotify(ls[0], e, w);
        PoppingDeliver(ls[1..], Notify(ls[0], e, w).value.world);
      }
    }
  }

  /** The engine is the next listener: it pops and posts Quit, and nobody after it posts. */
  lemma PoppingHead(ls: seq<Listener>, w: World)
    requires |ls| > 0 && ls[0] == EngineListener
    requires forall l :: l in ls ==> l in w.registry
    requires EventManager.NoDuplicates(ls) && EventManager.NoDuplicates(w.registry)
    requires |w.engine.stack| <= 1
    ensures var r := Deliver(ls, StateChange(None), w);
            && r.Success?
            && r.value.fx.posted == [Quit]
            && r.value.world.engine == Model.GameEngine(false, Pop(w.engine.stack).stack)
  {
    var s1 := PoppingNotify(w);
    EventManager.NoDuplicatesTail(ls);
    var s2 := PoppingRest(ls[1..], s1.world);
    DeliverStep(ls, StateChange(None), w, s1, s2);
  }

  /** The engine's own handling of a pop that leaves no state. */
  lemma PoppingNotify(w: World) returns (s: Step)
    requires EventManager.NoDuplicates(w.registry) && EngineListener in w.registry
    requires |w.engine.stack| <= 1
    ensures Notify(EngineListener, StateChange(None), w) == Success(s)
    ensures s.fx.posted == [Quit]
    ensures s.world.engine == Model.GameEngine(false, Pop(w.engine.stack).stack)
    ensures s.world.registry == w.registry
  {
    var reaction := Model.Notify(w.engine, StateChange(None));
    var w1 := w.(engine := reaction.engine);
    SilentPost(Quit, w1);
    assert PostEach([], Post(Quit, w1).value.world, 1).value.fx == NoEffects;
    s := Notify(EngineListener, StateChange(None), w).value;
  }

  /** The listeners after the engine neither post nor touch the engine. */
  lemma PoppingRest(ls: seq<Listener>, w: World) returns (s: Step)
    requires forall l :: l in ls ==> l in w.registry
    requires EventManager.NoDuplicates(ls) && EngineListener !in ls
    ensures Deliver(ls, StateChange(None), w) == Success(s)
    ensures s.fx.posted == [] && s.world.engine == w.engine
  {
    SilentDeliver(ls, StateChange(None), w);
    DeliverMeetsSpec(ls, StateChange(None), w);
    s := Deliver(ls, StateChange(None), w).value;
    TraceIsFanout(s.fx.trace, StateChange(None));
    EngineFoldFanout(w.engine, ls, StateChange(None));
  }

  /** The keyboard returns at once from every event but Tick: it posts nothing, reads no
      input and changes nothing. */
  lemma KeyboardIgnoresNonTick(e: Event, w: World)
    requires KeyboardListener in w.registry && !e.Tick?
    ensures Notify(KeyboardListener, e, w) == Success(Step(w, Effects([], [Delivery(KeyboardListener, e)], [], [])))
  {
  }

  /** Each registered listener is notified exactly once with the posted event. */
  lemma PostNotifiesEachOnce(e: Event, w: World, l: Listener)
    requires EventManager.NoDuplicates(w.registry)
    requires Post(e, w).Success?
    ensures EventManager.Count(Project(Post(e, w).value.fx.trace, e), l) == if l in w.registry then 1 else 0
  {
    PostMeetsSpec(e, w);
    EventManager.CountNoDuplicates(w.registry, l);
  }

  /** A listener taken out of the registry is not notified of anything by a later post,
      including the posts nested inside it. */
  lemma UnregisteredNeverNotified(e: Event, w: World, l: Listener)
    requires Post(e, w.(registry := EventManager.Unregister(w.registry, l))).Success?
    ensures forall d :: d in Post(e, w.(registry := EventManager.Unregister(w.registry, l))).value.fx.trace
              ==> d.listener != l
  {
    PostMeetsSpec(e, w.(registry := EventManager.Unregister(w.registry, l)));
  }

  /** A Quit posted at any depth stops a registered engine before the outer post returns. */
  lemma QuitStopsEngine(e: Event, w: World)
    requires EngineListener in w.registry
    requires Post(e, w).Success? && Quit in Post(e, w).value.fx.posted
    ensures !Post(e, w).value.world.engine.running
  {
    PostMeetsSpec(e, w);
    var s := Post(e, w).value;
    assert Delivery(EngineListener, Quit) in s.fx.trace;
    EngineRunning(w.engine, s.fx.trace);
  }

  /** `pygame.event.get()` takes the whole queue: a Tick empties it when the keyboard is
      registered, and no other post touches it. */
  lemma TickDrainsQueue(e: Event, w: World)
    requires Post(e, w).Success?
    ensures Post(e, w).value.world.pending ==
            if e.Tick? && KeyboardListener in w.registry then [] else w.pending
  {
    PostMeetsSpec(e, w);
    var s := Post(e, w).value;
    if e.Tick? && KeyboardListener in w.registry {
      assert Delivery(KeyboardListener, Tick) in s.fx.trace;
    }
  }

  /** A window close waiting in pygame's queue ends the game at the next Tick, whatever the
      state and whatever else is queued: the keyboard posts Quit and a registered engine
      stops. */
  lemma WindowCloseQuits(w: World)
    requires EngineListener in w.registry && KeyboardListener in w.registry
    requires Controller.WindowClose in w.pending
    requires Post(Tick, w).Success?
    ensures Quit in Post(Tick, w).value.fx.posted
    ensures !Post(Tick, w).value.world.engine.running
  {
    PostMeetsSpec(Tick, w);
    QuitStopsEngine(Tick, w);
  }

  /** An Escape press waiting in pygame's queue is answered at the next Tick with a pop
      request, whatever the state. */
  lemma QueuedEscapeRequestsPop(w: World, text: string)
    requires KeyboardListener in w.registry
    requires Controller.KeyDown(Controller.Escape, text) in w.pending
    requires Post(Tick, w).Success?
    ensures StateChange(None) in Post(Tick, w).value.fx.posted
  {
    PostMeetsSpec(Tick, w);
  }

  /** Only the engine writes the engine's state: without a registered engine, no post
      changes the stack or the running flag, whatever the other listeners post. */
  lemma OnlyEngineWritesState(e: Event, w: World)
    requires EngineListener !in w.registry
    requires Post(e, w).Success?
    ensures Post(e, w).value.world.engine == w.engine
  {
    PostMeetsSpec(e, w);
    EngineFoldIdle(w.engine, Post(e, w).value.fx.trace);
  }

  /** Only the view draws: without a registered view, no post asks anything of pygame. */
  lemma NoViewNoScreen(e: Event, w: World)
    requires ViewListener !in w.registry
    requires Post(e, w).Success?
    ensures Post(e, w).value.fx.screen == []
  {
    PostMeetsSpec(e, w);
    ScreenFoldIdle(w.engine, w.view, Post(e, w).value.fx.trace);
  }

  lemma {:induction false} ScreenFoldIdle(g: Model.GameEngine, v: View.GraphicalView, t: seq<Delivery>)
    requires forall d :: d in t ==> d.listener != ViewListener
    ensures ScreenFold(g, v, t) == []
    decreases |t|
  {
    if |t| > 0 {
      var g' := if t[0].listener == EngineListener then Model.Notify(g, t[0].event).engine else g;
      ScreenFoldIdle(g', v, t[1..]);
    }
  }

  /** A view that is not initialised draws no screen and ticks no clock for the rest of a
      post that does not post Initialize: at most it shuts the display down again on Quit. */
  lemma ClosedViewDrawsNothing(e: Event, w: World)
    requires !w.view.initialized
    requires Post(e, w).Success? && Initialize !in Post(e, w).value.fx.posted
    ensures forall o :: o in Post(e, w).value.fx.screen ==> o == View.CloseDisplay
  {
    PostMeetsSpec(e, w);
    var t := Post(e, w).value.fx.trace;
    assert Delivery(ViewListener, Initialize) !in t;
    ClosedViewFold(w.engine, w.view, t);
  }

  lemma {:induction false} ClosedViewFold(g: Model.GameEngine, v: View.GraphicalView, t: seq<Delivery>)
    requires !v.initialized && Delivery(ViewListener, Initialize) !in t
    ensures forall o :: o in ScreenFold(g, v, t) ==> o == View.CloseDisplay
    decreases |t|
  {
    if |t| > 0 {
      var d := t[0];
      var g' := if d.listener == EngineListener then Model.Notify(g, d.event).engine else g;
      var v' := if d.listener == ViewListener then View.Lifecycle(v, d.event) else v;
      ClosedViewFold(g', v', t[1..]);
    }
  }

  lemma {:induction false} EngineFoldIdle(g: Model.GameEngine, t: seq<Delivery>)
    requires forall d :: d in t ==> d.listener != EngineListener
    ensures EngineFold(g, t) == g
    decreases |t|
  {
    if |t| > 0 {
      EngineFoldIdle(g, t[1..]);
    }
  }

  /** A state change with a state pushes it on a registered engine, and nothing else
      happens to the engine. */
  lemma PostPush(w: World, x: State)
    requires EventManager.NoDuplicates(w.registry) && EngineListener in w.registry
    ensures var r := Post(StateChange(Some(x)), w);
            && r.Success?
            && r.value.world.engine == w.engine.(stack := Push(w.engine.stack, x))
            && r.value.fx.posted == [StateChange(Some(x))]
            && r.value.fx.log == [PushedPrefix + StateName(x)]
  {
    SilentPost(StateChange(Some(x)), w);
    PushedLine(x);
    var g := Model.Notify(w.engine, StateChange(Some(x))).engine;
    assert g == w.engine.(stack := Push(w.engine.stack, x));
  }

  /** A pop request while at least two states are stacked returns to the state below and
      keeps the engine running. */
  lemma PostPopReturns(w: World)
    requires EventManager.NoDuplicates(w.registry) && EngineListener in w.registry
    requires |w.engine.stack| >= 2
    ensures var r := Post(StateChange(None), w);
            && r.Success?
            && r.value.world.engine == w.engine.(stack := w.engine.stack[..|w.engine.stack| - 1])
            && r.value.fx.posted == [StateChange(None)]
  {
    SilentPost(StateChange(None), w);
  }

  /** A pop request that leaves no state, or finds none, posts a Quit that every registered
      listener receives, and the engine stops with an empty stack. */
  lemma PostPopLast(w: World)
    requires EventManager.NoDuplicates(w.registry) && EngineListener in w.registry
    requires |w.engine.stack| <= 1
    ensures var r := Post(StateChange(None), w);
            && r.Success?
            && r.value.fx.posted == [StateChange(None), Quit]
            && r.value.world.engine == Model.GameEngine(false, [])
            && (forall l :: l in w.registry ==> Delivery(l, Quit) in r.value.fx.trace)
            && r.value.fx.log == [PoppedLine, "Quit event"]
  {
    PoppingDeliver(w.registry, w);
    PostMeetsSpec(StateChange(None), w);
    var r := Post(StateChange(None), w);
    var s := r.value;
    var d := Deliver(w.registry, StateChange(None), w).value;
    assert d.fx.posted == [Quit];
    assert s.fx.posted == [StateChange(None), Quit];
    assert s.world.engine == d.world.engine;
    assert forall l :: l in w.registry ==> Delivery(l, Quit) in s.fx.trace by {
      assert Quit in s.fx.posted;
    }
    LogOfPopQuit();
  }

  lemma LogOfPopQuit()
    ensures EventManager.LogOf([StateChange(None), Quit]) == [PoppedLine, "Quit event"]
  {
    assert [StateChange(None), Quit][1..] == [Quit];
    assert EventManager.LogOf([Quit]) == ["Quit event"];
    assert ToString(StateChange(None)) == PoppedLine;
  }
}

=== FILE: event_manager.dfy ===
/** The listener registry of `EventManager` and the logging rule of its `Post`.
    The registry is a `WeakKeyDictionary` keyed by listener in the code; here it is the
    sequence of its keys in insertion order, which is also the order `Post` walks them. */
module EventManager {
  import opened Events

  /** Dictionary keys are unique. */
  ghost predicate NoDuplicates<L>(s: seq<L>) {
    forall i, j :: 0 <= i < j < |s| ==> s[i] != s[j]
  }

  /** How often `x` occurs in `s`. */
  function Count<L(==)>(s: seq<L>, x: L): nat
    decreases |s|
  {
    if |s| == 0 then 0 else (if s[0] == x then 1 else 0) + Count(s[1..], x)
  }

  /** Position of `x` in `s`. */
  function IndexOf<L(==)>(s: seq<L>, x: L): (i: nat)
    requires x in s
    ensures i < |s| && s[i] == x && x !in s[..i]
    decreases |s|
  {
    if s[0] == x then 0 else 1 + IndexOf(s[1..], x)
  }

  /** `RegisterListener`: `listeners[l] = 1` adds a new key at the end and leaves an
      existing key where it is. */
  function Register<L(==, !new)>(listeners: seq<L>, l: L): (r: seq<L>)
    ensures l in r
    ensures forall x :: x in r <==> x in listeners || x == l
    ensures |listeners| <= |r| <= |listeners| + 1 && r[..|listeners|] == listeners
    ensures NoDuplicates(listeners) ==> NoDuplicates(r)
  {
    if l in listeners then listeners else listeners + [l]
  }

  /** `UnregisterListener`: deletes the key if present, keeping the others in order. */
  function Unregister<L(==, !new)>(listeners: seq<L>, l: L): (r: seq<L>)
    ensures l !in r
    ensures forall x :: x != l ==> (x in r <==> x in listeners)
    ensures l !in listeners ==> r == listeners
    ensures NoDuplicates(listeners) ==> NoDuplicates(r)
    decreases |listeners|
  {
    if |listeners| == 0 then []
    else if listeners[0] == l then Unregister(listeners[1..], l)
    else
      var rest := Unregister(listeners[1..], l);
      NoDuplicatesCons(listeners, rest);
      [listeners[0]] + rest
  }

  /** Keeping the head of a duplicate-free sequence in front of a sub-collection of its
      tail keeps it duplicate-free. */
  lemma NoDuplicatesTail<L>(s: seq<L>)
    requires |s| > 0 && NoDuplicates(s)
    ensures NoDuplicates(s[1..]) && s[0] !in s[1..]
  {
  }

  lemma NoDuplicatesCons<L>(s: seq<L>, rest: seq<L>)
    requires |s| > 0
    requires forall y :: y in rest ==> y in s[1..]
    ensures NoDuplicates(s) && NoDuplicates(rest) ==> NoDuplicates([s[0]] + rest)
  {
    if NoDuplicates(s) && NoDuplicates(rest) {
      assert s[0] !in s[1..];
      NoDuplicatesPrepend(s[0], rest);
    }
  }

  lemma NoDuplicatesPrepend<L>(x: L, s: seq<L>)
    requires NoDuplicates(s) && x !in s
    ensures NoDuplicates([x] + s)
  {
    forall i, j | 0 <= i < j < |[x] + s|
      ensures ([x] + s)[i] != ([x] + s)[j]
    {
      if i == 0 {
        assert ([x] + s)[j] == s[j - 1];
      }
    }
  }

  /** In a duplicate-free registry, unregistering removes exactly the one entry of `l`
      and keeps every other listener in its order. */
  lemma {:induction false} UnregisterRemovesEntry<L(!new)>(listeners: seq<L>, l: L)
    requires NoDuplicates(listeners) && l in listeners
    ensures Unregister(listeners, l) ==
            listeners[..IndexOf(listeners, l)] + listeners[IndexOf(listeners, l) + 1..]
    decreases |listeners|
  {
    if listeners[0] != l {
      assert NoDuplicates(listeners[1..]);
      UnregisterRemovesEntry(listeners[1..], l);
      var i := IndexOf(listeners[1..], l);
      assert listeners[..i + 1] == [listeners[0]] + listeners[1..][..i];
      assert listeners[i + 2..] == listeners[1..][i + 1..];
    } else {
      assert l !in listeners[1..];
    }
  }

  /** A duplicate-free sequence holds each of its members exactly once. */
  lemma {:induction false} CountNoDuplicates<L>(s: seq<L>, x: L)
    requires NoDuplicates(s)
    ensures Count(s, x) == if x in s then 1 else 0
    decreases |s|
  {
    if |s| > 0 {
      assert NoDuplicates(s[1..]);
      CountNoDuplicates(s[1..], x);
      if s[0] == x {
        assert x !in s[1..];
      }
    }
  }

  /** Registering a listener twice still leaves exactly one entry for it. */
  lemma RegisterTwiceOnce<L(!new)>(listeners: seq<L>, l: L)
    requires NoDuplicates(listeners)
    ensures Register(Register(listeners, l), l) == Register(listeners, l)
    ensures Count(Register(listeners, l), l) == 1
  {
    CountNoDuplicates(Register(listeners, l), l);
  }

  /** Unregistering a listener that was just registered restores the registry. */
  lemma {:induction false} RegisterThenUnregister<L(!new)>(listeners: seq<L>, l: L)
    requires l !in listeners
    ensures Unregister(Register(listeners, l), l) == listeners
    decreases |listeners|
  {
    if |listeners| > 0 {
      assert (listeners + [l])[1..] == listeners[1..] + [l];
      RegisterThenUnregister(listeners[1..], l);
    } else {
      assert Unregister([l], l) == Unregister([], l);
    }
  }

  /** What `Post` prints before it notifies anyone: `str(event)`, except for Tick. */
  function LogLine(e: Event): seq<string>
  {
    if e.Tick? then [] else [ToString(e)]
  }

  /** Number of Tick events in a sequence of posts. */
  function CountTicks(posted: seq<Event>): nat
    decreases |posted|
  {
    if |posted| == 0 then 0 else (if posted[0].Tick? then 1 else 0) + CountTicks(posted[1..])
  }

  /** The lines printed by a sequence of posts: one `str(event)` per non-Tick event,
      in posting order, and nothing for Tick. */
  function LogOf(posted: seq<Event>): (log: seq<string>)
    ensures |log| == |posted| - CountTicks(posted)
    decreases |posted|
  {
    if |posted| == 0 then [] else LogLine(posted[0]) + LogOf(posted[1..])
  }

  /** Every non-Tick post is printed, and every printed line is some non-Tick post. */
  lemma {:induction false} LogOfContents(posted: seq<Event>)
    ensures forall ev :: ev in posted && !ev.Tick? ==> ToString(ev) in LogOf(posted)
    ensures forall line :: line in LogOf(posted) ==>
              exists ev :: ev in posted && !ev.Tick? && line == ToString(ev)
    decreases |posted|
  {
    if |posted| > 0 {
      LogOfContents(posted[1..]);
      forall line | line in LogOf(posted)
        ensures exists ev :: ev in posted && !ev.Tick? && line == ToString(ev)
      {
        if line !in LogLine(posted[0]) {
          var ev :| ev in posted[1..] && !ev.Tick? && line == ToString(ev);
          assert ev in posted;
        }
      }
    }
  }

  lemma {:induction false} LogOfConcat(a: seq<Event>, b: seq<Event>)
    ensures LogOf(a + b) == LogOf(a) + LogOf(b)
    decreases |a|
  {
    if |a| > 0 {
      assert (a + b)[1..] == a[1..] + b;
      LogOfConcat(a[1..], b);
    } else {
      assert a + b == b;
    }
  }

  lemma {:induction false} CountTicksConcat(a: seq<Event>, b: seq<Event>)
    ensures CountTicks(a + b) == CountTicks(a) + CountTicks(b)
    decreases |a|
  {
    if |a| > 0 {
      assert (a + b)[1..] == a[1..] + b;
      CountTicksConcat(a[1..], b);
    } else {
      assert a + b == b;
    }
  }
}

=== FILE: events.dfy ===
/** The event classes of eventmanager.py as one closed sum type. */
module Events {
  import opened Wrappers
  import opened StateMachine
  import Decimal

  /** A pointer position, as the `(x, y)` tuple pygame reports. */
  datatype Pos = Pos(x: int, y: int)

  datatype Event =
    | Quit
    | Tick
    | Initialize
      /** Keyboard or mouse input; both fields may be `None`. */
    | Input(unicode: Option<string>, clickPos: Option<Pos>)
      /** `state` present requests a push, absent requests a pop. */
    | StateChange(state: Option<State>)

  /** The `name` attribute each event class sets in its constructor. */
  function Name(e: Event): string {
    match e
    case Quit => "Quit event"
    case Tick => "Tick event"
    case Initialize => "Initialize event"
    case Input(_, _) => "Input event"
    case StateChange(_) => "State change event"
  }

  /** Python's formatting of an optional character string. */
  function CharText(c: Option<string>): string {
    match c
    case None => "None"
    case Some(s) => s
  }

  /** Python's formatting of an optional `(x, y)` tuple. */
  function PosText(p: Option<Pos>): string {
    match p
    case None => "None"
    case Some(Pos(x, y)) => "(" + Decimal.IntStr(x) + ", " + Decimal.IntStr(y) + ")"
  }

  /** `str(event)`: the name, extended with the payload for Input and StateChange. */
  function ToString(e: Event): (line: string)
    ensures Name(e) <= line
    ensures (e.Quit? || e.Tick? || e.Initialize?) ==> line == Name(e)
  {
    match e
    case Input(c, p) => Name(e) + ", char=" + CharText(c) + ", clickpos=" + PosText(p)
    case StateChange(Some(s)) => Name(e) + " pushed " + StateName(s)
    case StateChange(None) => Name(e) + " popped"
    case _ => Name(e)
  }

  /** The line printed for an input event: its name, then its character and its click
      position as Python formats them. */
  lemma InputLine(c: Option<string>, p: Option<Pos>)
    ensures ToString(Input(c, p)) == "Input event, char=" + CharText(c) + ", clickpos=" + PosText(p)
  {
  }

  /** The printed click position determines the position: the two coordinates are
      separated by the first comma, and each reads back as its integer. */
  lemma PosTextInjective(p: Option<Pos>, q: Option<Pos>)
    requires PosText(p) == PosText(q)
    ensures p == q
  {
    if p.Some? && q.Some? {
      var a, b := Decimal.IntStr(p.value.x), Decimal.IntStr(p.value.y);
      var a', b' := Decimal.IntStr(q.value.x), Decimal.IntStr(q.value.y);
      Decimal.IntStrNoComma(p.value.x);
      Decimal.IntStrNoComma(q.value.x);
      PairTextInjective(a, b, a', b');
      Decimal.IntStrRoundTrip(p.value.x);
      Decimal.IntStrRoundTrip(q.value.x);
      Decimal.IntStrRoundTrip(p.value.y);
      Decimal.IntStrRoundTrip(q.value.y);
    }
  }

  /** `"(a, b)"` splits back into `a` and `b` when `a` holds no comma. */
  lemma PairTextInjective(a: string, b: string, a': string, b': string)
    requires ',' !in a && ',' !in a'
    requires "(" + a + ", " + b + ")" == "(" + a' + ", " + b' + ")"
    ensures a == a' && b == b'
  {
    var s := "(" + a + ", " + b + ")";
    var s' := "(" + a' + ", " + b' + ")";
    assert s[1..|s| - 1] == a + [','] + (" " + b);
    assert s'[1..|s'| - 1] == a' + [','] + (" " + b');
    FirstComma(a, " " + b, a', " " + b');
    assert b == (" " + b)[1..] && b' == (" " + b')[1..];
  }

  /** The text before the first comma is the same in two equal strings. */
  lemma FirstComma(a: string, r: string, a': string, r': string)
    requires ',' !in a && ',' !in a'
    requires a + [','] + r == a' + [','] + r'
    ensures a == a' && r == r'
  {
    var u := a + [','] + r;
    CommaIndex(a, r);
    CommaIndex(a', r');
    assert a == u[..|a|] && a' == u[..|a'|];
    assert r == u[|a| + 1..] && r' == u[|a'| + 1..];
  }

  /** In `a + "," + r` with `a` free of commas, the first comma stands at `|a|`. */
  lemma CommaIndex(a: string, r: string)
    requires ',' !in a
    ensures (a + [','] + r)[|a|] == ','
    ensures forall i :: 0 <= i < |a| ==> (a + [','] + r)[i] != ','
  {
    forall i | 0 <= i < |a|
      ensures (a + [','] + r)[i] != ','
    {
      assert (a + [','] + r)[i] == a[i];
    }
  }

  /** How deep a post of this event can nest: a listener reacting to an event
      only ever posts events of strictly smaller rank. */
  function Rank(e: Event): nat {
    match e
    case Tick => 2
    case StateChange(_) => 1
    case Input(_, _) => 1
    case Quit => 0
    case Initialize => 0
  }

  const PushedPrefix := "State change event pushed "
  const PoppedLine := "State change event popped"

  /** The line printed for a push request. */
  lemma PushedLine(s: State)
    ensures ToString(StateChange(Some(s))) == PushedPrefix + StateName(s)
  {
    assert Name(StateChange(Some(s))) + " pushed " == PushedPrefix;
  }

  /** Reads an enum member back from its printed name. */
  function StateFromName(n: string): Option<State> {
    if n == StateName(Intro) then Some(Intro)
    else if n == StateName(Menu) then Some(Menu)
    else if n == StateName(Help) then Some(Help)
    else if n == StateName(About) then Some(About)
    else if n == StateName(Play) then Some(Play)
    else None
  }

  /** Recovers a state change request from its printed line, if the line is one. */
  function ParseStateChange(line: string): Option<Option<State>> {
    if line == PoppedLine then Some(None)
    else if |PushedPrefix| <= |line| && line[..|PushedPrefix|] == PushedPrefix then
      match StateFromName(line[|PushedPrefix|..])
      case Some(s) => Some(Some(s))
      case None => None
    else None
  }

  /** Member names differ right after "States.STATE_", so a name determines its member. */
  lemma StateNameRoundTrip(s: State)
    ensures StateFromName(StateName(s)) == Some(s)
  {
    forall t | t != s
      ensures StateName(t) != StateName(s)
    {
      assert StateName(t)[13] != StateName(s)[13];
    }
  }

  /** A printed state change names exactly the request it came from, and no other
      event prints as a state change. */
  lemma StateChangeLineRoundTrip(e: Event)
    ensures ParseStateChange(ToString(e)) == if e.StateChange? then Some(e.state) else None
  {
    var line := ToString(e);
    match e
    case Input(_, _) =>
      assert line[0] != PoppedLine[0];
      assert line[0] != PushedPrefix[0];
    case StateChange(None) =>
    case StateChange(Some(s)) =>
      assert line[..|PushedPrefix|] == PushedPrefix;
      assert line[|PushedPrefix|..] == StateName(s);
      assert line != PoppedLine by { assert |line| != |PoppedLine|; }
      StateNameRoundTrip(s);
    case _ =>
  }
}

=== FILE: main_loop.dfy ===
/** `GameEngine.run` of model.py: the start-up steps and the Tick loop. The loop runs
    while the engine's flag is set; each iteration is given the raw inputs that reach
    pygame's queue before its Tick, and the model stops when those batches run out. */
module MainLoop {
  import opened Wrappers
  import opened StateMachine
  import opened Events
  import EventManager
  import Model
  import Controller
  import View
  import opened Dispatch

  /** The steps of `run` before its loop: set the running flag, post Initialize while the
      stack is still as the constructor left it, then push the first state directly. */
  function Start(w: World): (s: Step)
    ensures s.fx.posted == [Initialize]
    ensures s.fx.log == ["Initialize event"]
    ensures Project(s.fx.trace, Initialize) == w.registry
    ensures forall d :: d in s.fx.trace ==> d.event == Initialize
    ensures s.world.registry == w.registry
    ensures s.world.engine.running
    ensures s.world.engine.stack == Push(w.engine.stack, Model.FirstState)
    ensures ViewListener in w.registry ==> s.world.view.initialized
    ensures Inv(s.world)
  {
    var w1 := w.(engine := w.engine.(running := true));
    var p := Post(Initialize, w1).value;
    PostMeetsSpec(Initialize, w1);
    InitializeChangesOnlyView(w1, p);
    Step(p.world.(engine := p.world.engine.(stack := Push(p.world.engine.stack, Model.FirstState))), p.fx)
  }

  lemma InitializeChangesOnlyView(w: World, p: Step)
    requires Post(Initialize, w) == Success(p)
    ensures p.fx.posted == [Initialize]
    ensures p.fx.log == ["Initialize event"]
    ensures forall d :: d in p.fx.trace ==> d.event == Initialize
    ensures p.world.engine == w.engine
    ensures ViewListener in w.registry ==> p.world.view.initialized
  {
    PostMeetsSpec(Initialize, w);
    InitializeIsLeaf(w, p);
    EngineFoldInitialize(w.engine, p.fx.trace);
    if ViewListener in w.registry {
      assert Initialize in p.fx.posted;
      assert Delivery(ViewListener, Initialize) in p.fx.trace;
      ViewFoldInitialize(w.view, p.fx.trace);
    }
  }

  /** Initialize has the lowest rank, so no handler posts anything in reply to it. */
  lemma InitializeIsLeaf(w: World, p: Step)
    requires PostSpec(Initialize, w, p)
    ensures p.fx.posted == [Initialize]
    ensures p.fx.log == ["Initialize event"]
    ensures forall d :: d in p.fx.trace ==> d.event == Initialize
  {
    assert p.fx.posted == [Initialize] + p.fx.posted[1..];
    RankedBelow(p.fx.posted[1..], 0);
    assert EventManager.LogOf([Initialize]) == ["Initialize event"];
  }

  /** Events ranked below `k` exist only when `k` is positive. */
  lemma RankedBelow(q: seq<Event>, k: int)
    requires forall ev :: ev in q ==> Rank(ev) < k
    ensures q == [] || k > 0
  {
    if q != [] {
      assert q[0] in q;
    }
  }

  lemma {:induction false} EngineFoldInitialize(g: Model.GameEngine, t: seq<Delivery>)
    requires forall d :: d in t ==> d.event == Initialize
    ensures EngineFold(g, t) == g
    decreases |t|
  {
    if |t| > 0 {
      EngineFoldInitialize(g, t[1..]);
    }
  }

  lemma {:induction false} ViewFoldInitialize(v: View.GraphicalView, t: seq<Delivery>)
    requires forall d :: d in t ==> d.event == Initialize
    requires Delivery(ViewListener, Initialize) in t
    ensures ViewFold(v, t).initialized
    decreases |t|
  {
    var v' := if t[0].listener == ViewListener then View.Lifecycle(v, t[0].event) else v;
    if t[0] == Delivery(ViewListener, Initialize) {
      ViewFoldKeepsInitialized(v', t[1..]);
    } else {
      ViewFoldInitialize(v', t[1..]);
    }
  }

  lemma {:induction false} ViewFoldKeepsInitialized(v: View.GraphicalView, t: seq<Delivery>)
    requires forall d :: d in t ==> d.event == Initialize
    requires v.initialized
    ensures ViewFold(v, t).initialized
    decreases |t|
  {
    if |t| > 0 {
      var v' := if t[0].listener == ViewListener then View.Lifecycle(v, t[0].event) else v;
      ViewFoldKeepsInitialized(v', t[1..]);
    }
  }

  /** `while self.running: post(TickEvent())`, one Tick per batch of raw inputs, each batch
      joining pygame's queue just before its Tick. The flag is tested before every Tick, so
      the loop stops right after the Tick whose handling stopped the engine: with a
      registered engine, no Tick follows a Quit. A registered keyboard leaves the queue
      empty after the last Tick. */
  function Loop(w: World, batches: seq<seq<Controller.RawInput>>): (r: Outcome)
    ensures !w.engine.running ==> r == Success(Step(w, NoEffects))
    ensures r.Success? ==> FramedApartFromQueue(w, r.value) && (Inv(w) ==> Inv(r.value.world))
    ensures r.Success? && Tick !in r.value.fx.posted ==> r.value.world.pending == w.pending
    ensures r.Success? && Tick in r.value.fx.posted && KeyboardListener in w.registry ==>
              r.value.world.pending == []
    ensures r.Success? ==> EventManager.CountTicks(r.value.fx.posted) <= |batches|
    ensures r.Success? && EventManager.CountTicks(r.value.fx.posted) < |batches| ==>
              !r.value.world.engine.running
    ensures r.Success? ==> forall ev :: ev in r.value.fx.posted ==> !ev.Initialize?
    ensures r.Success? && EngineListener in w.registry ==> QuitEndsTicks(r.value.fx.posted)
    decreases |batches|
  {
    if !w.engine.running || |batches| == 0 then
      FramedNothing(w);
      Success(Step(w, NoEffects))
    else
      var s1 :- Post(Tick, w.(pending := w.pending + batches[0]));
      var s2 :- Loop(s1.world, batches[1..]);
      PostMeetsSpec(Tick, w.(pending := w.pending + batches[0]));
      OneTick(w.(pending := w.pending + batches[0]), s1);
      assert Delivery(KeyboardListener, Tick) in s1.fx.trace <== KeyboardListener in w.registry;
      FramedApartThen(w, s1, s2);
      EventManager.CountTicksConcat(s1.fx.posted, s2.fx.posted);
      TickThenLoop(w.(pending := w.pending + batches[0]), s1, s2);
      Success(Step(s2.world, s1.fx.Then(s2.fx)))
  }

  /** No Tick follows a Quit in `posted`. */
  ghost predicate QuitEndsTicks(posted: seq<Event>) {
    forall i, j :: 0 <= i < j < |posted| && posted[i] == Quit ==> posted[j] != Tick
  }

  /** One iteration of `Loop` keeps `QuitEndsTicks`: a Tick whose handling posted Quit has
      stopped the engine, so the rest of the loop posts nothing. */
  lemma TickThenLoop(w1: World, s1: Step, s2: Step)
    requires Post(Tick, w1) == Success(s1) && PostSpec(Tick, w1, s1)
    requires !s1.world.engine.running ==> s2.fx.posted == []
    requires EngineListener in w1.registry ==> QuitEndsTicks(s2.fx.posted)
    ensures EngineListener in w1.registry ==> QuitEndsTicks(s1.fx.posted + s2.fx.posted)
  {
    if EngineListener in w1.registry {
      if Quit in s1.fx.posted {
        QuitStopsEngine(Tick, w1);
      }
      QuitEndsTicksConcat(s1.fx.posted, s2.fx.posted);
    }
  }

  lemma QuitEndsTicksConcat(a: seq<Event>, b: seq<Event>)
    requires |a| > 0 && forall ev :: ev in a[1..] ==> Nested(ev)
    requires Quit in a ==> b == []
    requires QuitEndsTicks(b)
    ensures QuitEndsTicks(a + b)
  {
    forall i, j | 0 <= i < j < |a + b| && (a + b)[i] == Quit
      ensures (a + b)[j] != Tick
    {
      if j < |a| {
        assert a[j] in a[1..];
      } else if |a| <= i {
        assert (a + b)[i] == b[i - |a|] && (a + b)[j] == b[j - |a|];
      }
    }
  }

  /** A Tick post posts exactly one Tick, and no Initialize. */
  lemma OneTick(w: World, s: Step)
    requires Post(Tick, w) == Success(s)
    ensures EventManager.CountTicks(s.fx.posted) == 1
    ensures forall ev :: ev in s.fx.posted ==> !ev.Initialize?
  {
    PostMeetsSpec(Tick, w);
    assert s.fx.posted == [Tick] + s.fx.posted[1..];
    NoTicks(s.fx.posted[1..]);
    EventManager.CountTicksConcat([Tick], s.fx.posted[1..]);
  }

  lemma {:induction false} NoTicks(p: seq<Event>)
    requires forall ev :: ev in p ==> Nested(ev)
    ensures EventManager.CountTicks(p) == 0
    decreases |p|
  {
    if |p| > 0 {
      assert p[0] in p;
      assert forall ev :: ev in p[1..] ==> ev in p;
      NoTicks(p[1..]);
    }
  }

  /** `GameEngine.run` with one batch of raw inputs per Tick. */
  function Run(w: World, batches: seq<seq<Controller.RawInput>>): (r: Outcome)
    ensures r.Success? ==> r.value.world.registry == w.registry
    ensures r.Success? ==> |r.value.fx.posted| > 0 && r.value.fx.posted[0] == Initialize
    ensures r.Success? ==> forall ev :: ev in r.value.fx.posted[1..] ==> !ev.Initialize?
    ensures r.Success? ==> Inv(r.value.world)
    ensures r.Success? ==> EventManager.CountTicks(r.value.fx.posted) <= |batches|
    ensures r.Success? && EventManager.CountTicks(r.value.fx.posted) < |batches| ==>
              !r.value.world.engine.running
  {
    var s0 := Start(w);
    var s1 :- Loop(s0.world, batches);
    EventManager.CountTicksConcat(s0.fx.posted, s1.fx.posted);
    assert (s0.fx.posted + s1.fx.posted)[1..] == s1.fx.posted;
    Success(Step(s1.world, s0.fx.Then(s1.fx)))
  }
}

=== FILE: model.dfy ===
/** `GameEngine` of model.py: the owner of the state stack and of the running flag. */
module Model {
  import opened Wrappers
  import opened StateMachine
  import opened Events

  datatype GameEngine = GameEngine(running: bool, stack: Stack)

  /** The engine as its constructor leaves it: not running, no states. */
  const Created := GameEngine(false, [])

  /** The engine after handling one event, and the events it posts while doing so. */
  datatype Reaction = Reaction(engine: GameEngine, posts: seq<Event>)

  /** `GameEngine.notify`: Quit stops the loop; a state change with a state pushes it;
      one without a state pops, and posts Quit unless `pop()` answered true. Every other
      event is ignored. */
  function Notify(g: GameEngine, e: Event): (r: Reaction)
    ensures r.engine.running == (g.running && !e.Quit?)
    ensures !e.StateChange? ==> r.engine.stack == g.stack && r.posts == []
    ensures e.StateChange? && e.state.Some? ==>
              r.engine.stack == Push(g.stack, e.state.value) && r.posts == []
    ensures e.StateChange? && e.state.None? ==>
              r.engine.stack == Pop(g.stack).stack
              && (r.posts == [Quit] <==> |r.engine.stack| == 0)
              && (r.posts == [] <==> |r.engine.stack| > 0)
    ensures r.posts == [] || (r.posts == [Quit] && e == StateChange(None))
  {
    match e
    case Quit => Reaction(g.(running := false), [])
    case StateChange(Some(s)) => Reaction(g.(stack := Push(g.stack, s)), [])
    case StateChange(None) =>
      var popped := Pop(g.stack);
      var g' := g.(stack := popped.stack);
      if popped.remaining != Some(true) then Reaction(g', [Quit]) else Reaction(g', [])
    case _ => Reaction(g, [])
  }

  /** The one state the loop starts from. */
  const FirstState := Menu

  /** A pop request on an empty stack still posts Quit: `not None` is true. */
  lemma PopOnEmptyPostsQuit(g: GameEngine)
    requires |g.stack| == 0
    ensures Notify(g, StateChange(None)) == Reaction(g, [Quit])
  {
  }

  /** The engine stays running with a non-empty stack unless it posts Quit: a pop that
      empties the stack is always followed by a shutdown request. */
  lemma RunningKeepsAState(g: GameEngine, e: Event)
    requires g.running ==> |g.stack| > 0
    ensures var r := Notify(g, e);
            r.engine.running && |r.engine.stack| == 0 ==> Quit in r.posts
  {
  }
}

=== FILE: scenarios.dfy ===
/** Whole-program runs of the game as its entry point wires it: the engine registers
    first, then the keyboard, then the view, each from its constructor. */
module Scenarios {
  import opened Wrappers
  import opened StateMachine
  import opened Events
  import EventManager
  import Model
  import Controller
  import View
  import opened Dispatch
  import opened MainLoop

  const Wired: seq<Listener> := [EngineListener, KeyboardListener, ViewListener]

  /** The three objects as their constructors leave them, the view with its default
      30 frames per second, and pygame's queue empty. */
  const Fresh := World(Wired, Model.Created, View.GraphicalView(false, 30), [])

  /** The world once `run` has passed its start-up steps. */
  const Started := World(Wired, Model.GameEngine(true, [Menu]), View.GraphicalView(true, 30), [])

  /** Starting the freshly wired game shows the menu: the engine runs with Menu as its
      only state and the view has opened its display. */
  lemma StartShowsMenu(w: World)
    requires w == Fresh
    ensures Start(w).world.engine == Started.engine
    ensures Start(w).world.view.initialized
    ensures Start(w).world.registry == Wired
    ensures Start(w).fx.log == ["Initialize event"]
  {
  }

  /** The engine does nothing on a Tick. */
  lemma EngineIgnoresTick(w: World)
    requires EngineListener in w.registry
    ensures Notify(EngineListener, Tick, w) == Success(Step(w, Effects([], [Delivery(EngineListener, Tick)], [], [])))
  {
    assert Model.Notify(w.engine, Tick) == Model.Reaction(w.engine, []);
    assert w.(engine := w.engine) == w;
    assert PostEach([], w, 2) == Success(Step(w, NoEffects));
    var fx := Effects([], [Delivery(EngineListener, Tick)], [], []);
    assert fx.Then(NoEffects) == fx;
    assert Notify(EngineListener, Tick, w) == Success(Step(w, fx.Then(NoEffects)));
  }

  /** Space in the menu, read during a Tick, starts the game; the view, notified of the
      same Tick after the keyboard, already draws the play screen. */
  lemma SpaceInMenuStartsPlay(w: World)
    requires w.registry == Wired && w.engine == Model.GameEngine(true, [Menu]) && w.view.initialized
    requires w.pending == [Controller.KeyDown(Controller.Space, " ")]
    ensures var r := Post(Tick, w);
            && r.Success?
            && r.value.world.engine == Model.GameEngine(true, [Menu, Play])
            && r.value.fx.posted == [Tick, StateChange(Some(Play))]
            && r.value.fx.log == [PushedPrefix + StateName(Play)]
            && r.value.fx.screen == [View.Draw(View.PlayScreen), View.ClockTick(w.view.fps)]
  {
    var d := SpaceTick(w);
    PostStep(Tick, w, d);
    PostMeetsSpec(Tick, w);
    LogOfTickThenPush(Play);
  }

  /** The Tick's delivery to the engine, the keyboard and the view, in that order. */
  lemma SpaceTick(w: World) returns (d: Step)
    requires w.registry == Wired && w.engine == Model.GameEngine(true, [Menu]) && w.view.initialized
    requires w.pending == [Controller.KeyDown(Controller.Space, " ")]
    ensures Deliver(w.registry, Tick, w) == Success(d)
    ensures d.world.engine == Model.GameEngine(true, [Menu, Play])
    ensures d.fx.posted == [StateChange(Some(Play))]
    ensures d.fx.screen == [View.Draw(View.PlayScreen), View.ClockTick(w.view.fps)]
  {
    EngineIgnoresTick(w);
    var bc := KeyboardThenView(w);
    DeliverStep(Wired, Tick, w, Step(w, Effects([], [Delivery(EngineListener, Tick)], [], [])), bc);
    d := Step(bc.world, Effects([], [Delivery(EngineListener, Tick)], [], []).Then(bc.fx));
  }

  lemma KeyboardThenView(w: World) returns (bc: Step)
    requires w.registry == Wired && w.engine == Model.GameEngine(true, [Menu]) && w.view.initialized
    requires w.pending == [Controller.KeyDown(Controller.Space, " ")]
    ensures Deliver(Wired[1..], Tick, w) == Success(bc)
    ensures bc.world.engine == Model.GameEngine(true, [Menu, Play])
    ensures bc.fx.posted == [StateChange(Some(Play))]
    ensures bc.fx.screen == [View.Draw(View.PlayScreen), View.ClockTick(w.view.fps)]
  {
    assert EventManager.NoDuplicates(Wired);
    var b := KeyboardStartsPlay(w);
    var c := ViewDrawsPlay(b.world);
    DeliverLast(ViewListener, Tick, b.world, c);
    assert Wired[1..][1..] == [ViewListener];
    DeliverStep(Wired[1..], Tick, w, b, c);
    bc := Step(c.world, b.fx.Then(c.fx));
  }

  lemma LogOfTickThenPush(x: State)
    ensures EventManager.LogOf([Tick, StateChange(Some(x))]) == [PushedPrefix + StateName(x)]
  {
    assert [Tick, StateChange(Some(x))][1..] == [StateChange(Some(x))];
    PushedLine(x);
  }

  lemma DeliverLast(l: Listener, e: Event, w: World, s: Step)
    requires l in w.registry && Notify(l, e, w) == Success(s)
    ensures Deliver([l], e, w) == Success(s)
  {
    assert [l][1..] == [];
    assert Deliver([], e, s.world) == Success(Step(s.world, NoEffects));
    DeliverStep([l], e, w, s, Step(s.world, NoEffects));
    assert s.fx.Then(NoEffects) == s.fx;
  }

  lemma DeliverAbort(ls: seq<Listener>, e: Event, w: World, f: Controller.Fatal)
    requires |ls| > 0 && forall l :: l in ls ==> l in w.registry
    requires Notify(ls[0], e, w) == Failure(f)
    ensures Deliver(ls, e, w) == Failure(f)
  {
  }

  lemma PostStep(e: Event, w: World, s: Step)
    requires Deliver(w.registry, e, w) == Success(s)
    ensures Post(e, w) == Success(Step(s.world, Effects([e], [], EventManager.LogLine(e), []).Then(s.fx)))
  {
  }

  /** The keyboard's part of that Tick: it pushes Play, which nobody answers. */
  lemma KeyboardStartsPlay(w: World) returns (b: Step)
    requires EventManager.NoDuplicates(w.registry)
    requires KeyboardListener in w.registry && EngineListener in w.registry
    requires Peek(w.engine.stack) == Some(Menu)
    requires w.pending == [Controller.KeyDown(Controller.Space, " ")]
    ensures Notify(KeyboardListener, Tick, w) == Success(b)
    ensures b.world.registry == w.registry && b.world.view == w.view
    ensures b.world.engine == w.engine.(stack := Push(w.engine.stack, Play))
    ensures b.fx.posted == [StateChange(Some(Play))] && b.fx.screen == []
  {
    var w1 := w.(pending := []);
    var e := StateChange(Some(Play));
    SpaceInMenu(w1);
    SilentPost(e, w1);
    b := Notify(KeyboardListener, Tick, w).value;
  }

  /** Space read while the menu is on top posts a push of Play, and nothing else. */
  lemma SpaceInMenu(w: World)
    requires Peek(w.engine.stack) == Some(Menu)
    ensures Post(StateChange(Some(Play)), w).Success?
    ensures Poll([Controller.KeyDown(Controller.Space, " ")], w) == Success(Post(StateChange(Some(Play)), w).value)
  {
    assert Controller.PollOne(Some(Menu), Controller.KeyDown(Controller.Space, " ")) == Success([StateChange(Some(Play))]);
    PollSingle(Controller.KeyDown(Controller.Space, " "), w, StateChange(Some(Play)));
  }

  /** A handler posting the single event `e` during a Tick. */
  lemma PostEachSingle(e: Event, w: World)
    requires e.StateChange?
    ensures Post(e, w).Success?
    ensures PostEach([e], w, 2) == Success(Post(e, w).value)
  {
    var p := Post(e, w).value;
    assert [e][1..] == [];
    assert PostEach([e][1..], p.world, 2) == Success(Step(p.world, NoEffects));
    assert p.fx.Then(NoEffects) == p.fx;
    PostEachStep([e], w, 2, p, Step(p.world, NoEffects));
  }

  /** Polling one raw input that the keyboard turns into the single event `e`. */
  lemma PollSingle(raw: Controller.RawInput, w: World, e: Event)
    requires e.StateChange? && Controller.PollOne(Peek(w.engine.stack), raw) == Success([e])
    ensures Post(e, w).Success?
    ensures Poll([raw], w) == Success(Post(e, w).value)
  {
    PostEachSingle(e, w);
    var p := Post(e, w).value;
    assert Poll([], p.world) == Success(Step(p.world, NoEffects));
  }

  /** The view's part of that Tick: it draws the state now on top, then ticks the clock. */
  lemma ViewDrawsPlay(w: World) returns (c: Step)
    requires ViewListener in w.registry && w.view.initialized && Peek(w.engine.stack) == Some(Play)
    ensures Notify(ViewListener, Tick, w) == Success(c)
    ensures c.world == w && c.fx.posted == []
    ensures c.fx.screen == [View.Draw(View.PlayScreen), View.ClockTick(w.view.fps)]
  {
    c := Notify(ViewListener, Tick, w).value;
  }

  /** Escape followed by another key within one Tick, from the menu: the pop empties the
      stack, and the next key press finds no state to dispatch on, which is the
      exception `Unknown state None` in the keyboard's handler. */
  lemma EscapeThenKeyAborts(w: World)
    requires w.registry == Wired && w.engine == Model.GameEngine(true, [Menu])
    requires w.pending == [Controller.KeyDown(Controller.Escape, ""), Controller.KeyDown(Controller.Space, " ")]
    ensures Post(Tick, w) == Failure(Controller.UnknownState(None))
  {
    var ls := w.registry;
    assert EventManager.NoDuplicates(ls);
    EngineIgnoresTick(w);
    var a := Notify(EngineListener, Tick, w).value;
    KeyboardAborts(w);
    DeliverAbort(ls[1..], Tick, a.world, Controller.UnknownState(None));
  }

  /** The keyboard's part of that Tick: Escape pops the menu, the engine quits, and the
      key after it finds no state. */
  lemma KeyboardAborts(w: World)
    requires EventManager.NoDuplicates(w.registry) && EngineListener in w.registry
    requires KeyboardListener in w.registry
    requires w.engine == Model.GameEngine(true, [Menu])
    requires w.pending == [Controller.KeyDown(Controller.Escape, ""), Controller.KeyDown(Controller.Space, " ")]
    ensures Notify(KeyboardListener, Tick, w) == Failure(Controller.UnknownState(None))
  {
    var w1 := w.(pending := []);
    var f := Controller.UnknownState(None);
    PostEachSingle(StateChange(None), w1);
    PostPopLast(w1);
    var p := Post(StateChange(None), w1).value;
    KeyWithoutState(p.world.engine.stack, w.pending[1]);
    PollAbort(w.pending[1..], p.world, f);
    EscapePops(w1.engine.stack, w.pending[0]);
    PollContinue(w.pending, w1, [StateChange(None)], p, f);
  }

  lemma EscapePops(stack: Stack, raw: Controller.RawInput)
    requires raw.KeyDown? && raw.key == Controller.Escape
    ensures Controller.PollOne(Peek(stack), raw) == Success([StateChange(None)])
  {
  }

  lemma KeyWithoutState(stack: Stack, raw: Controller.RawInput)
    requires stack == [] && raw.KeyDown? && raw.key != Controller.Escape
    ensures Controller.PollOne(Peek(stack), raw) == Failure(Controller.UnknownState(None))
  {
  }

  /** A raw input the keyboard cannot dispatch ends the poll with its error. */
  lemma PollAbort(raws: seq<Controller.RawInput>, w: World, f: Controller.Fatal)
    requires |raws| > 0 && Controller.PollOne(Peek(w.engine.stack), raws[0]) == Failure(f)
    ensures Poll(raws, w) == Failure(f)
  {
  }

  /** After a raw input that posts `es`, the poll goes on from the world those posts
      leave; an error later in the queue still ends it. */
  lemma PollContinue(raws: seq<Controller.RawInput>, w: World, es: seq<Event>, s: Step, f: Controller.Fatal)
    requires |raws| > 0 && Controller.PollOne(Peek(w.engine.stack), raws[0]) == Success(es)
    requires PostEach(es, w, 2) == Success(s)
    requires Poll(raws[1..], s.world) == Failure(f)
    ensures Poll(raws, w) == Failure(f)
  {
  }

  /** A pop request posted on the last state (what Escape asks for): the engine posts Quit,
      every listener hears it, the view closes its display, and the loop does not run
      again. */
  lemma PopRequestOnLastStateQuits(w: World, batches: seq<seq<Controller.RawInput>>)
    requires EventManager.NoDuplicates(w.registry)
    requires EngineListener in w.registry && ViewListener in w.registry
    requires |w.engine.stack| <= 1
    ensures var r := Post(StateChange(None), w);
            && r.Success?
            && r.value.fx.posted == [StateChange(None), Quit]
            && r.value.fx.log == [PoppedLine, "Quit event"]
            && !r.value.world.engine.running
            && !r.value.world.view.initialized
            && Loop(r.value.world, batches) == Success(Step(r.value.world, NoEffects))
  {
    PostPopLast(w);
    PostMeetsSpec(StateChange(None), w);
    var r := Post(StateChange(None), w).value;
    assert Delivery(ViewListener, Quit) in r.fx.trace;
    assert Initialize !in r.fx.posted;
    assert Traced(r.fx);
    ViewSeesQuit(w.view, r.fx.trace);
  }

  /** Once the view has been told Quit, it stays uninitialized for the rest of a trace in
      which it is never told Initialize. */
  lemma {:induction false} ViewSeesQuit(v: View.GraphicalView, t: seq<Delivery>)
    requires Delivery(ViewListener, Quit) in t
    requires Delivery(ViewListener, Initialize) !in t
    ensures !ViewFold(v, t).initialized
    decreases |t|
  {
    var v' := if t[0].listener == ViewListener then View.Lifecycle(v, t[0].event) else v;
    if t[0] == Delivery(ViewListener, Quit) {
      ViewStaysClosed(v', t[1..]);
    } else {
      ViewSeesQuit(v', t[1..]);
    }
  }

  lemma {:induction false} ViewStaysClosed(v: View.GraphicalView, t: seq<Delivery>)
    requires !v.initialized
    requires Delivery(ViewListener, Initialize) !in t
    ensures !ViewFold(v, t).initialized
    decreases |t|
  {
    if |t| > 0 {
      var v' := if t[0].listener == ViewListener then View.Lifecycle(v, t[0].event) else v;
      ViewStaysClosed(v', t[1..]);
    }
  }

  /** Opening a state over a non-empty stack and then posting a pop request (what Escape
      asks for) restores the engine exactly. */
  lemma PushThenPopRestores(w: World, x: State)
    requires EventManager.NoDuplicates(w.registry) && EngineListener in w.registry
    requires |w.engine.stack| > 0
    ensures var r1 := Post(StateChange(Some(x)), w);
            && r1.Success?
            && var r2 := Post(StateChange(None), r1.value.world);
            && r2.Success?
            && r2.value.world.engine == w.engine
  {
    PostPush(w, x);
    var w1 := Post(StateChange(Some(x)), w).value.world;
    assert w1.registry == w.registry;
    assert w1.engine.stack[..|w1.engine.stack| - 1] == w.engine.stack;
    PostPopReturns(w1);
  }

  /** From the menu: the game, then its help screen, then a pop request (what Escape asks
      for), which returns to the game with the engine still running. */
  lemma HelpAndBack(w: World)
    requires EventManager.NoDuplicates(w.registry) && EngineListener in w.registry
    requires w.engine == Model.GameEngine(true, [Menu])
    ensures var r1 := Post(StateChange(Some(Play)), w);
            && r1.Success?
            && var r2 := Post(StateChange(Some(Help)), r1.value.world);
            && r2.Success?
            && Peek(r2.value.world.engine.stack) == Some(Help)
            && var r3 := Post(StateChange(None), r2.value.world);
            && r3.Success?
            && r3.value.world.engine == Model.GameEngine(true, [Menu, Play])
  {
    PostPush(w, Play);
    var w1 := Post(StateChange(Some(Play)), w).value.world;
    assert w1.registry == w.registry && w1.engine == Model.GameEngine(true, [Menu, Play]);
    PostPush(w1, Help);
    PushThenPopRestores(w1, Help);
  }

  /** A listener hears a Tick while registered and no longer once unregistered; the
      others still hear it. */
  lemma UnregisterSilencesListener(w: World, l: Listener)
    requires w.pending == [] && EventManager.NoDuplicates(w.registry) && l in w.registry
    ensures var r1 := Post(Tick, w);
            && r1.Success?
            && Delivery(l, Tick) in r1.value.fx.trace
            && var w2 := r1.value.world.(registry := EventManager.Unregister(r1.value.world.registry, l));
            && var r2 := Post(Tick, w2);
            && r2.Success?
            && Delivery(l, Tick) !in r2.value.fx.trace
            && forall m :: m in w.registry && m != l ==> Delivery(m, Tick) in r2.value.fx.trace
  {
    SilentPost(Tick, w);
    var w1 := Post(Tick, w).value.world;
    var w2 := w1.(registry := EventManager.Unregister(w1.registry, l));
    SilentPost(Tick, w2);
  }
}

=== FILE: state_machine.dfy ===
/** The `States` enum and the stack-based `StateMachine` of model.py. */
module StateMachine {
  import opened Wrappers

  /** The closed set of application modes. */
  datatype State = Intro | Menu | Help | About | Play

  /** `str()` of an enum member, as Python prints it. */
  function StateName(s: State): string {
    match s
    case Intro => "States.STATE_INTRO"
    case Menu => "States.STATE_MENU"
    case Help => "States.STATE_HELP"
    case About => "States.STATE_ABOUT"
    case Play => "States.STATE_PLAY"
  }

  /** Python's formatting of an optional state: the member name, or "None". */
  function OptionalStateName(s: Option<State>): string {
    match s
    case None => "None"
    case Some(x) => StateName(x)
  }

  /** `state_stack`: the top of the stack is the last element. */
  type Stack = seq<State>

  /** `peek()`: the top state, or `None` for an empty stack. */
  function Peek(stack: Stack): (top: Option<State>)
    ensures top.None? <==> |stack| == 0
    ensures top.Some? ==> top.value == stack[|stack| - 1]
  {
    if |stack| == 0 then None else Some(stack[|stack| - 1])
  }

  /** `push(state)`: appends a new top; returns nothing, like the code. */
  function Push(stack: Stack, s: State): (r: Stack)
    ensures Peek(r) == Some(s)
    ensures |r| == |stack| + 1 && r[..|stack|] == stack
  {
    stack + [s]
  }

  /** What `pop()` leaves behind and what it returns. */
  datatype Popped = Popped(stack: Stack, remaining: Option<bool>)

  /** `pop()`: `None` on an empty stack, otherwise whether any state remains. */
  function Pop(stack: Stack): (r: Popped)
    ensures |stack| == 0 ==> r == Popped([], None)
    ensures |stack| > 0 ==> |r.stack| == |stack| - 1 && stack == r.stack + [stack[|stack| - 1]]
    ensures r.remaining == Some(true) <==> |stack| >= 2
    ensures r.remaining == Some(false) <==> |stack| == 1
  {
    if |stack| == 0 then Popped([], None)
    else
      var rest := stack[..|stack| - 1];
      Popped(rest, Some(|rest| > 0))
  }

  /** A push undone by a pop gives back the original stack. */
  lemma PushThenPop(stack: Stack, s: State)
    ensures Pop(Push(stack, s)) == Popped(stack, Some(|stack| > 0))
  {
  }

  /** After a pop, peek shows the state that was below the former top. */
  lemma PopThenPeek(stack: Stack)
    requires |stack| > 0
    ensures Peek(Pop(stack).stack) == if |stack| >= 2 then Some(stack[|stack| - 2]) else None
  {
  }

  /** The operations of a sequence of stack calls. */
  datatype Op = PushOp(state: State) | PopOp

  /** Runs push/pop calls in order on a stack. */
  function Apply(stack: Stack, ops: seq<Op>): Stack
    decreases |ops|
  {
    if |ops| == 0 then stack
    else
      match ops[0]
      case PushOp(s) => Apply(Push(stack, s), ops[1..])
      case PopOp => Apply(Pop(stack).stack, ops[1..])
  }

  /** How many elements a sequence of calls leaves: pushes add one, pops remove one unless empty. */
  function Height(h: nat, ops: seq<Op>): nat
    decreases |ops|
  {
    if |ops| == 0 then h
    else
      match ops[0]
      case PushOp(_) => Height(h + 1, ops[1..])
      case PopOp => Height(if h == 0 then 0 else h - 1, ops[1..])
  }

  /** The size after a run of calls follows the count of pushes and of pops on a non-empty stack. */
  lemma {:induction false} ApplyHeight(stack: Stack, ops: seq<Op>)
    ensures |Apply(stack, ops)| == Height(|stack|, ops)
    decreases |ops|
  {
    if |ops| > 0 {
      match ops[0]
      case PushOp(s) => ApplyHeight(Push(stack, s), ops[1..]);
      case PopOp => ApplyHeight(Pop(stack).stack, ops[1..]);
    }
  }
}

=== FILE: view.dfy ===
/** `GraphicalView` of view.py with all drawing reduced to output tokens. */
module View {
  import opened Wrappers
  import opened StateMachine
  import opened Events

  /** The view's flag and its frame rate; window size, title and fonts only reach pygame. */
  datatype GraphicalView = GraphicalView(initialized: bool, fps: int)

  /** The screens the view can draw. */
  datatype Screen = MenuScreen | PlayScreen | HelpScreen

  /** What the view asks of pygame: open the display, shut it down, draw a screen and
      flip, or wait on the clock for the next frame. */
  datatype Output = OpenDisplay | CloseDisplay | Draw(screen: Screen) | ClockTick(fps: int)

  /** The view after handling an event and what it asked of pygame. */
  datatype Reaction = Reaction(view: GraphicalView, outputs: seq<Output>)

  /** The screen a Tick draws for a given top of the stack, if any. */
  function ScreenFor(top: Option<State>): (s: Option<Screen>)
    ensures s == Some(MenuScreen) <==> top == Some(Menu)
    ensures s == Some(PlayScreen) <==> top == Some(Play)
    ensures s == Some(HelpScreen) <==> top == Some(Help)
  {
    match top
    case Some(Menu) => Some(MenuScreen)
    case Some(Play) => Some(PlayScreen)
    case Some(Help) => Some(HelpScreen)
    case _ => None
  }

  /** The `initialized` flag: set by Initialize, cleared by Quit. */
  function Lifecycle(v: GraphicalView, e: Event): (v': GraphicalView)
    ensures v'.fps == v.fps
    ensures e.Initialize? ==> v'.initialized
    ensures e.Quit? ==> !v'.initialized
    ensures !e.Initialize? && !e.Quit? ==> v' == v
  {
    match e
    case Initialize => v.(initialized := true)
    case Quit => v.(initialized := false)
    case _ => v
  }

  /** `GraphicalView.notify`, reading the top of the stack through `peek()`. */
  function Notify(v: GraphicalView, e: Event, top: Option<State>): (r: Reaction)
    ensures r.view == Lifecycle(v, e)
    ensures e.Initialize? ==> r.outputs == [OpenDisplay]
    ensures e.Quit? ==> r.outputs == [CloseDisplay]
    ensures e.Tick? && !v.initialized ==> r.outputs == []
    ensures e.Tick? && v.initialized ==>
              r.outputs == (match ScreenFor(top) case Some(s) => [Draw(s)] case None => [])
                           + [ClockTick(v.fps)]
    ensures e.StateChange? || e.Input? ==> r.outputs == []
  {
    match e
    case Initialize => Reaction(Lifecycle(v, e), [OpenDisplay])
    case Quit => Reaction(Lifecycle(v, e), [CloseDisplay])
    case Tick =>
      if !v.initialized then Reaction(v, [])
      else
        var drawn :=
          (if top == Some(Menu) then [Draw(MenuScreen)] else [])
          + (if top == Some(Play) then [Draw(PlayScreen)] else [])
          + (if top == Some(Help) then [Draw(HelpScreen)] else []);
        Reaction(v, drawn + [ClockTick(v.fps)])
    case _ => Reaction(v, [])
  }

  /** An initialized view ticks the clock exactly once per Tick and draws at most one
      screen, before the clock tick. */
  lemma OneFramePerTick(v: GraphicalView, top: Option<State>)
    requires v.initialized
    ensures var out := Notify(v, Tick, top).outputs;
            1 <= |out| <= 2 && out[|out| - 1] == ClockTick(v.fps)
            && (|out| == 2 <==> ScreenFor(top).Some?)
  {
  }
}

=== FILE: wrappers.dfy ===
/** Option and Result, the two wrapper types the rest of the model uses. */
module Wrappers {

  /** A value that may be absent; `None` stands for Python's `None`. */
  datatype Option<+T> = None | Some(value: T)

  /** The outcome of an operation that may abort; usable with `:-`. */
  datatype Result<+T, +E> = Success(value: T) | Failure(error: E) {

    predicate IsFailure() {
      Failure?
    }

    function PropagateFailure<U>(): Result<U, E>
      requires Failure?
    {
      Failure(error)
    }

    function Extract(): T
      requires Success?
    {
      value
    }
  }
}
